=== FILE: README.md ===
# DLT wallet adapters in Dafny

A model of the decision logic in the four ledger adapters of the DLT wallet
façade. The adapters are `lib/bch.js` (Bitcoin Cash with SLP tokens),
`lib/eos.js`, `lib/eth.js` and `lib/btc.js` (BlockIo for BTC, LTC and DOGE).
Every adapter is a JavaScript object with mutable `opts` and cache members. Here
each of them is a Dafny module of pure functions, and the state is passed in and
handed back explicitly.

The SDK, RPC and HTTP calls become parameters or inputs:

- connection constructors are `build`;
- EOS `api.transact` is `transact`;
- `get_table_rows` is the page `source`;
- the SLP listing, UTXO set, SLP balances and Newdex symbol list are plain sequences;
- the flat fee and the BlockIo PIN are plain values;
- the unseen decimal scaler `utils.bignum` of `dlt.utils` is the parameter `scale`.

Modules:

- `Wrappers`, `Text`, `Js`: `Option`/`Result`, plus the JavaScript string and value built-ins the guards depend on. Those are character classes, `indexOf`, first-occurrence `replace`, `split`, `toLowerCase`, `String(n)`, truthiness, `Number.isInteger` and `parseInt`.
- `Validation`: the shared `validate(addr, err)` shape.
- `Index`: the last-write-wins `reduce` of a listing into a map.
- `Sessions`: the memoised per-key connection cache.
- `CoinSelect`: the per-UTXO coin selection of BCH `send`.
- `Bch`: address and wallet-key checks, the dual-keyed token registry, the create and mint guards, `getBal` and `send`.
- `EosTable`: the cursor-paginated `table` read and `token.ls`.
- `EosQuantity`: `formatBySym` and `token.mint`.
- `Eos`: validators, `init`, `exec`, `token.info`, `getAmt` and the `send` alias.
- `Eth`: the validator, `init`, `getABI`, `token.set` and the `send` target and chain id.
- `Btc`: `validateAddress` and the per-(net, asset) `init`.

The code behaves as follows in these places:

- BCH coin selection raises no insufficient-funds error. Running out of outputs returns what was built (`CoinSelect.Plan`).
- A registry miss in BCH `token.info` throws a `TypeError` from reading a property of `undefined`. There is no dedicated not-found error (`Bch.Info`).
- EOS `token.info` of an unknown key returns `undefined` (`Eos.Info`).
- Connection caches have no single-flight construction.
- The SLP token listing is read in one call, not paginated.

The object helpers of the prototype library are taken at their obvious meaning:

- `isObj` is true for an options object and false for a string or number;
- `assign` and object `concat` are shallow merges;
- `lc` lower-cases ASCII.

## Model

| member | source | states |
|---|---|---|
| Validation.Report | lib/bch.js:104-105 | without a truthy `err` the verdict itself comes back; with one the call throws `err` exactly when the address is invalid and otherwise returns `undefined` |
| Index.LastWins | lib/bch.js:114-117 | every key of the listing is in the folded map, and each key holds the last listing entry carrying that key |
| Index.LastWinsKeys | lib/bch.js:114-117 | the folded map has no keys other than those occurring in the listing |
| Index.LastWinsValues | lib/bch.js:114 | every value in the folded map is an entry of the listing, filed under its own key |
| Index.LastWinsFiled | lib/bch.js:114-117 | every entry of the folded map is a listed element, filed under its own key |
| Index.LastWinsCrossKeys | lib/bch.js:113-117 | two maps folded from the same listing agree: an entry held under one key function is present under its key in the other |
| Sessions.Open | lib/eth.js:31-34 | the returned handle is the one cached for the key; it is built iff the key was absent; existing entries are untouched and the key set grows by exactly the key |
| Sessions.OpenAllKeepsEntries | lib/eos.js:32-33 | over any sequence of requests, cached entries survive and every requested key ends up cached |
| Sessions.OpenAllSharesHandles | lib/eos.js:32-48 | every request for a key receives the single handle the cache finally holds for it |
| Sessions.OpenAllBuildsOnce | lib/eth.js:31-34 | over any sequence of requests, a connection is built at most once per key, and exactly for the requested keys that were not already cached |
| CoinSelect.SortByAmount | lib/bch.js:196 | the result is ordered by descending `amount` and is a permutation of the listing |
| CoinSelect.Walk | lib/bch.js:198-211 | the i-th transaction spends the i-th output; if the walk stopped before the end, nothing was owed any more |
| CoinSelect.WalkConserves | lib/bch.js:202-211 | in both branches, each transaction's outputs plus the fee equal the satoshis of its single input |
| CoinSelect.WalkPaid | lib/bch.js:202-210 | the total paid to the recipient is exactly how far the remainder went down |
| CoinSelect.WalkNeverOverpays | lib/bch.js:202-210 | from a non-negative target the remainder never goes negative, and the recipient never receives more than the target |
| CoinSelect.WalkChangeIsLast | lib/bch.js:207-211 | at most one transaction carries change; it is the last one, the change is strictly positive, and the final remainder is 0 |
| CoinSelect.WalkOnlyWhileOwed | lib/bch.js:198-199 | every consumed output was reached while the amount still owed was positive |
| CoinSelect.Plan | lib/bch.js:195-219 | transactions come out by descending amount; their inputs are the largest outputs, a prefix of the sorted listing with none skipped, and distinct listed outputs; exhausting the outputs while still owing is no error and spends every output |
| CoinSelect.WorkedExample | lib/bch.js:196-211 | outputs 100, 60 and 30 with fee 5 and target 120 give [pay 95] then [pay 25, change 30]; the 30 is untouched |
| CoinSelect.DustOutputPaysNegative | lib/bch.js:202-205 | an output worth less than the fee is still spent whole; its payment is negative and the remainder grows |
| Js.ParseInt | lib/bch.js:155 | `parseInt` yields `NaN` or an integer number, never a fraction |
| Js.ParseIntDecimal | lib/bch.js:155 | the decimal rendering of a natural number parses back to that number |
| Bch.ValidateAddress | lib/bch.js:100-106 | valid iff 64 characters with at least one hexadecimal character anywhere; with `err`, throws exactly when invalid |
| Bch.OneHexCharacterSuffices | lib/bch.js:103 | a single hexadecimal character among 64 arbitrary ones is enough |
| Bch.WalletKeyOf | lib/bch.js:46-47 | the argument is kept as the raw key iff it has 128 characters and a lower-case hex character; otherwise it is a mnemonic to derive a seed from |
| Bch.Build | lib/bch.js:113-117 | every listed id and symbol is a key of its view, and each entry is a listed token filed under its own id or symbol |
| Bch.Ls | lib/bch.js:109-120 | a truthy cache is returned untouched; a falsy one is rebuilt from the listing and cached, and a rejected listing leaves the `{}` placeholder cached and fails |
| Bch.Set | lib/bch.js:121-123 | the cache is replaced wholesale, a falsy value emptying it |
| Bch.LsBuildsOnce | lib/bch.js:111-112 | a second `ls` returns whatever the first one cached, placeholder included, whatever the ledger now lists |
| Bch.SetThenLs | lib/bch.js:109-123 | after `set` of a registry, `ls` returns it; after `set` of a falsy value, the next `ls` rebuilds from the listing |
| Bch.BuildViewsAgree | lib/bch.js:113-117 | the id and symbol views never diverge: each token in one view is present under its key in the other |
| Bch.Annotate | lib/bch.js:126 | `assign` writes `nm` and `addr` into the one token object read, in the id view and in the symbol view where that object is filed, and changes nothing else |
| Bch.Info | lib/bch.js:124-127 | succeeds iff the registry has views and holds the id, returning the cached entry with `nm` and `addr` written into it and caching the written entry; a rejected listing propagates; the placeholder or an unknown id gives a `TypeError` |
| Bch.FailedListingSticks | lib/bch.js:111-113 | after a rejected listing every later `ls` returns the placeholder and every `info` throws a `TypeError`, until `set` |
| Bch.InfoTwice | lib/bch.js:124-127 | a second `info` of the same id returns the same annotated token and leaves the cache as the first one left it |
| Bch.AnnotateTwice | lib/bch.js:126 | assigning the same `nm` and `addr` again leaves both views and the returned token unchanged |
| Bch.Decimals | lib/bch.js:83-90 | 8 without a token id; otherwise the `decimalCount` of what `token.info` returns for the module's name `nm`, which is the registry entry for the id, failing exactly when `info` fails |
| Bch.CheckCreate | lib/bch.js:131-150 | accepts iff symbol, decimals, name and uri are truthy (so decimals 0 is refused) and decimals is an integer; each failure gives its message in check order; the quantity defaults to 0 |
| Bch.MintQuantityAsWritten | lib/bch.js:155-156 | the guard refuses only what compares `<= 0` after `parseInt` of a string |
| Bch.MintGuardAdmitsNaN | lib/bch.js:155-156 | `"abc"` passes the guard as `NaN`, and so does the fraction 0.5 |
| Bch.MintQuantity | lib/bch.js:155-156 | what is accepted is an integer greater than zero, as the error message promises |
| Bch.MintQuantityAcceptsPositive | lib/bch.js:155-156 | every positive integer, given as a number or as its digits, is accepted unchanged |
| Bch.Matching | lib/bch.js:78 | exactly the balances whose token id loosely equals 0, each as many times as it is listed |
| Bch.GetBalance | lib/bch.js:65-81 | `bch` in any case reads the native balance; otherwise exactly one match returns its balance, and zero or several matches give the "No" or "Multiple" message naming the symbol after ':' |
| Bch.Send | lib/bch.js:170-219 | "BCH" is funded by the coin selection at 8 decimals; any other token is an SLP transfer scaled by its `decimalCount`, failing exactly when `token.info` fails for the module's name `nm`, with the cache `info` leaves |
| EosTable.RequestAt | lib/eos.js:76-83 | each request carries the cursor as lower bound, `code` and `scope` as `opts.code || ACCT` and `opts.scope || ACCT`, and `limit` is `opts.limit` unless missing or 0, when it is 100 |
| EosTable.Keep | lib/eos.js:87 | without a filter the rows come back unchanged; with one, the kept rows are among the given ones and pass it, and every passing row is kept |
| EosTable.KeepCounts | lib/eos.js:87 | a row passing the filter is kept as often as it is listed, any other row never |
| EosTable.KeepAppend | lib/eos.js:87-88 | filtering distributes over concatenation |
| EosTable.GatheredIsFilteredAll | lib/eos.js:84-88 | filtering each page as it arrives gives the same rows as filtering all pages at the end |
| EosTable.Table | lib/eos.js:72-91 | `init(opts)` runs first and its new state, with the merged `net`, becomes the adapter's; then the pages are swept as `EosTable.Sweep` states |
| EosTable.Sweep | lib/eos.js:74-90 | the first request is at cursor 0; each next one is at the last unfiltered row id + 1 and is issued only while the previous page reported `more`; the result is every page's filtered rows in order |
| EosTable.EmptyPageRepeatsCursor | lib/eos.js:85-86 | an empty page that reports `more` sends the next request to the same cursor |
| EosTable.ByIssuer | lib/eos.js:158 | keeps exactly the rows whose `issuer_acct` is the issuer, each as often as it is listed |
| EosTable.TokenLs | lib/eos.js:153-160 | no argument throws and changes nothing; otherwise the options (with their `net`) go through `init`, the `treasury` table is swept 1000 rows at a time, and the rows are narrowed to the issuer when a non-empty one is named |
| EosQuantity.SupplyParts | lib/eos.js:171 | the amount is the supply's whitespace-free prefix; the symbol is `undefined` exactly when the supply has no whitespace |
| EosQuantity.SupplyDecimals | lib/eos.js:173 | no decimals exactly when the amount has no '.' |
| EosQuantity.TruncPad | lib/eos.js:175 | exactly `dec` characters: the fraction's first digits, then zeros |
| EosQuantity.TruncPadValue | lib/eos.js:175 | as a count of 10^-dec units the result is the fraction truncated toward zero, never rounded up |
| EosQuantity.FormatBySym | lib/eos.js:170-177 | starts with the integer part; the length is one point and `dec` digits longer than the integer part and symbol alone, or just the separating space when the supply has no '.' |
| EosQuantity.FormatBySymLayout | lib/eos.js:175-176 | after the integer part come a point, exactly the truncated-and-padded digits, then a space and the symbol |
| EosQuantity.FormatBySymWithoutPoint | lib/eos.js:172-173 | a supply without '.' gives the integer part, a space and the symbol |
| EosQuantity.FormatKeepsExactDecimals | lib/eos.js:173-176 | a quantity that already has the supply's decimal count is rendered with its own digits |
| EosQuantity.TokenDefinition | lib/eos.js:166 | a row without `supply` throws; otherwise the result is a listed row whose supply contains the symbol, found iff one exists |
| EosQuantity.FirstSupplying | lib/eos.js:166 | the result is the first row whose supply contains the symbol; there is none iff no row does |
| EosQuantity.Mint | lib/eos.js:164-169 | succeeds iff a token definition is found; the action carries the customer, the formatted quantity and `DVPU` |
| Eos.ThirdTestRedundant | lib/eos.js:146-147 | a lower-case first character already satisfies the third test |
| Eos.ValidateAddress | lib/eos.js:143-150 | valid iff 12 characters with a lower-case first letter; with `err`, throws exactly when invalid |
| Eos.IsValidAccount | lib/eos.js:204-207 | always true on `local`; elsewhere true exactly for 12 characters of `[a-z1-5.]` |
| Eos.AccountStartingWithLetterValidates | lib/eos.js:143-150 | a valid account name that starts with a letter also passes `addr.validate` |
| Eos.ValidateAndAccountDiffer | lib/eos.js:204-207 | the two checks disagree both ways: upper case after the first letter passes only `validate`, a leading digit only `isValid.acct` |
| Eos.Init | lib/eos.js:29-49 | `opts.net` becomes the object's `net` when one is given and otherwise stays; the connection is cached under it, built only when absent, and other entries are untouched |
| Eos.InitIgnoresText | lib/eos.js:30-31 | a string argument behaves like no argument |
| Eos.InitReentry | lib/eos.js:32-33 | re-entering on the same net returns the same connection and leaves the state unchanged |
| Eos.Actor | lib/eos.js:52-56 | the actor is a truthy `auth`, otherwise the account; string options always give the account |
| Eos.ExecAction | lib/eos.js:53-58 | one action on the account, named as asked, carrying the data and a single `active` authorization by the actor |
| Eos.StripPreamble | lib/eos.js:65-67 | without the preamble the message is unchanged; with it, exactly the first occurrence is cut out |
| Eos.StripPrefixed | lib/eos.js:65-67 | a message prefixed with the preamble comes out as the bare message |
| Eos.Exec | lib/eos.js:50-71 | succeeds iff the transaction commits; a rejection is rethrown with the preamble stripped and the submitted action attached; `init(opts)` updates the state either way |
| Eos.ExecReportsAssertionMessage | lib/eos.js:64-69 | a contract assertion reaches the caller as its bare message |
| Eos.BuildTokens | lib/eos.js:191-198 | every listed `contract:currency` is a key; each entry comes from a listed symbol with that key, and from the last one that has it |
| Eos.BuildTokensLastWins | lib/eos.js:193-198 | the entry for a key is the last listed symbol carrying it |
| Eos.InfoAsWritten | lib/eos.js:185-201 | with an empty cache every call whose `fetch` resolves throws "Newdex fetch code: undefined" and the cache stays empty; a rejected `fetch` propagates its own error, which the model does not distinguish |
| Eos.InfoAsWrittenNeverBuilds | lib/eos.js:186-189 | whatever Newdex answers, the map is never built |
| Eos.Info | lib/eos.js:185-201 | a cached map is reused; otherwise a non-200 code throws with the code, and a 200 body builds the map; a lookup gives the entry or `undefined`, never an error |
| Eos.InfoBuildsOnce | lib/eos.js:186 | once built, later calls read the cache whatever Newdex answers |
| Eos.InfoLookup | lib/eos.js:200 | an unlisted key yields `undefined`; a listed one yields an entry whose contract and symbol spell the key |
| Eos.DecimalsAsWritten | lib/eos.js:92-100 | 8 unless the asset is truthy; a non-zero number is used directly; a token key goes through `token.info` as written, so it throws "Newdex fetch code: undefined" on an empty cache and otherwise takes the cached precision, failing when unknown |
| Eos.ZeroPrecisionScalesByEight | lib/eos.js:94 | a precision of 0 selects 8 decimals |
| Eos.TokenKeyFailsAsWritten | lib/eos.js:96-97 | as written, a token key on an empty cache always fails with the Newdex message and leaves the cache empty |
| Eos.TokenDecimals | lib/eos.js:96-99 | the precision of the entry the given `token.info` returns; its error propagates and an `undefined` entry throws a `TypeError` |
| Eos.Decimals | lib/eos.js:92-100 | a numeric asset is always used directly, 0 included; no asset gives 8; a token key gives its precision through the corrected `token.info`, which on a 200 reply is the built entry's |
| Eos.DecimalsAgreeAwayFromZero | lib/eos.js:92-100 | once the token map is cached, the corrected selection differs from the code only at precision 0 |
| Eos.GetAmt | lib/eos.js:92-102 | the amount is scaled by `utils.bignum` to the decimals the corrected selection gives, failing when the selection fails |
| Eos.GetAmtAsWritten | lib/eos.js:92-102 | as written: precision 0 and a missing asset scale by 8, a non-zero precision scales by itself, a token key fails with "Newdex fetch code: undefined" on an empty cache and otherwise scales by the cached precision, failing when the key is unknown |
| Eos.GetAmtAgreesAwayFromZero | lib/eos.js:92-102 | once the token map is cached, the corrected and as-written `getAmt` agree except at precision 0, where the code scales by 8 and the corrected one by 0 |
| Eos.SendAsset | lib/eos.js:122 | `EOS` becomes `eosio.token:EOS`; other assets are unchanged; the result is never the bare `EOS` |
| Eos.SendAssetIdempotent | lib/eos.js:122 | applying the alias twice is the same as applying it once |
| Eth.ValidateAddress | lib/eth.js:65-71 | valid iff 42 characters containing `0x` or `0X` followed by a hexadecimal digit somewhere; with `err`, throws exactly when invalid |
| Eth.CanonicalAddressValidates | lib/eth.js:68 | `0x` followed by forty hexadecimal digits validates |
| Eth.PrefixAnywhereValidates | lib/eth.js:68 | the prefix may appear after arbitrary leading characters |
| Eth.Connect | lib/eth.js:31-34 | returns the cached connection for the key; builds and stores one only when absent |
| Eth.InitAsWritten | lib/eth.js:26-35 | no argument throws a `TypeError`; a string is the key and leaves `opts` alone; an object is merged into `opts` and `opts.net` is the key |
| Eth.BareInitAlwaysThrows | lib/eth.js:26-27 | the argument-less `init()` used by the other operations throws for every state |
| Eth.Init | lib/eth.js:26-35 | without an argument the key is `opts.net`; with one, the result is what the code gives |
| Eth.InitReentry | lib/eth.js:31 | a second argument-less call returns the same connection and state |
| Eth.Subdomain | lib/eth.js:84 | `main` maps to `api`, `test` to `ropsten`, anything else to `undefined` |
| Eth.AbiUrl | lib/eth.js:83-87 | the URL starts with `http://` and the stage's subdomain, ends with the address, and holds exactly the fixed Etherscan query in between |
| Eth.AbiUrlDefault | lib/eth.js:83-87 | the default stage is `main` |
| Eth.AbiUrlInjective | lib/eth.js:87 | different addresses on the same stage give different URLs |
| Eth.AbiResult | lib/eth.js:88-92 | fails iff the message is `NOTOK`, with "Etherscan: " followed by the result |
| Eth.TokenSet | lib/eth.js:79-81 | the token cache becomes exactly the given map |
| Eth.ChainId | lib/eth.js:127 | 1 on `main`, 3 on every other net |
| Eth.SendTx | lib/eth.js:120-144 | `ETH` sends the value to the recipient; any other token calls `transfer` on the cached contract address, throwing iff the cache or the entry is missing; the chain id follows `opts.net` |
| Eth.SetThenSend | lib/eth.js:79-81 | after `token.set`, a token transfer goes to the contract address that was set |
| Btc.ValidateAddress | lib/btc.js:44-49 | true iff the address starts with `1`, `3` or `bc1`, contains none of `O`, `I`, `l`, `0`, and has 26 to 34 characters |
| Btc.ConfusableAnywhereRejects | lib/btc.js:46 | one confusable character anywhere rejects, whatever the prefix |
| Btc.LongSegwitRejected | lib/btc.js:47 | a 42-character `bc1` address is always rejected |
| Btc.LegacyAddressValidates | lib/btc.js:44-49 | a 34-character address starting with `1` and free of confusable characters passes |
| Btc.Initial | lib/btc.js:25-26 | the state starts on `main`/`BTC` with empty client maps for `main`, `test` and `local` |
| Btc.Merge | lib/btc.js:28 | an object's `net` and `asset` override the stored ones; anything else leaves `opts` alone |
| Btc.Init | lib/btc.js:27-43 | no argument throws; an object is merged into `opts` even when the call then fails; an unknown net throws; a client cached under (net, lower-cased asset) is returned unchanged; a missing one fails with the PIN error exactly when there is no PIN and is otherwise built; other nets and the net's other clients are left alone |
| Btc.InitIgnoresAssetName | lib/btc.js:28-30 | a string argument behaves like an empty options object |
| Btc.InitReentry | lib/btc.js:33-34 | after a success, the next call returns the same client and state, PIN or no PIN |
| Btc.AssetCaseShared | lib/btc.js:32 | `BTC` and `btc` share one client |
| Btc.RetryAfterMissingPin | lib/btc.js:36-42 | after the missing-PIN error, the same call with a PIN succeeds and builds the client |

## Left out

- Building, signing and broadcasting transactions (SLP SDK, web3, eosjs, BlockIo) are external. So are all HTTP calls (Newdex, Etherscan, the REST endpoints). Their results are inputs or function parameters.
- `utils.bignum` of `dlt.utils` is not part of this model. It is the uninterpreted parameter `scale` of type `Js.Bignum`, shared by the BCH and EOS adapters, and its result is taken to be an integer count of minimal units.
- Floating-point code is left out:
  - BCH `getFee`;
  - the ETH gas price (×1.25 and ×1e8), `toWei`, `fromWei` and `toHex`;
  - the `Math.floor` of a non-integer quantity.
- Key material is left out. That covers BCH `init`'s wallet handling, `createWallet`, `setAccount` and `getNewAddress`, and ETH `getNewAddress` and `getAccount`. These involve HD derivation, mnemonics, encryption and storage.
- BCH `init` and the connection map it keeps are not modelled, because it only constructs the SDK. The session behaviour is modelled for EOS, ETH and BTC.
- ETH `getBal`, `token.info`, `getSymbol`, `getAmt`, `getContract` and `getGasPrice` are left out. They are SDK and network calls.
- EOS `watch` is left out because it is action streaming.
- EOS `token.create`, `token.audit` and `token.burn` are calls of `exec` with a fixed action name and are covered by `Eos.Exec`.
- EOS `send` beyond the asset alias is left out. It calls `token.info` and `getAmt` without awaiting them, so the action is assembled from pending promises.
- The module-load environment checks of the EOS adapter and the module registration in `index.js` are left out.
- Concurrent calls are left out. The caches have no single-flight construction, so there is no interleaving property to state.
- The tie order of the UTXO sort is not modelled. The comparator never returns 0, so equal amounts land in an engine-defined order. `CoinSelect.SortByAmount` keeps them in listing order.
- The `\s` class of the regular expressions is restricted to ASCII whitespace.
- EosTable.Sweep: the do-while is bounded by a `fuel` count of extra pages. A source that keeps reporting `more` (for instance with empty pages, see `EosTable.EmptyPageRepeatsCursor`) loops forever in the code. In the model it stops with `done` false.
- Js.ParseInt: covers ASCII whitespace, an optional sign, decimal digits and the `0x` prefix. It does not cover double rounding of very long digit runs.
- Bch.LooselyZero: covers token ids spelled with decimal digits and whitespace. Other spellings that JavaScript's `==` also equates to 0 (`"0x0"`, `"0e5"`, `"-0"`, `".0"`) are not covered.
- EosQuantity.FormatBySym: takes the quantity as a non-negative integer part and fraction digits. Negative quantities and the exponent form of `toString` are not modelled.
- Eth.AbiResult: the `JSON.parse` of the returned ABI text is not modelled.
- Eos.Exec: `transact` does not depend on the connection `init` returned.
- Btc.Init: net names that are inherited object properties (`toString`, `constructor` and the like) are treated like any other unknown net, giving `TypeError`. In the code `self.conn[net]` finds the inherited value and the lookup goes on from there.
- Btc.Init: asset keys that are inherited object properties (`constructor` and the like, which `.lc()` leaves unchanged) are treated as absent, so the model builds a client or gives the PIN error. In the code `self.conn[net][asset]` finds the inherited value and returns it as the client.
- EosTable.Table: row ids are assumed to be numbers below 2^53. In the code `id + 1` is floating-point addition, exact only below that bound, and a string id would concatenate instead.
- EosTable.Table: the page `source` does not depend on the connection `init` returned.
- EosQuantity.Mint: takes the listed rows as an input. The session change made by its `token.ls(opts)` and `exec` calls is modelled by `EosTable.TokenLs` and `Eos.Exec`.
- Eth.SendTx: assumes the corrected `Eth.Init`. As written, `send` calls `init()` with no argument, which always throws (see Findings).
- Bch.Set: a truthy value other than a two-view registry or the `{}` placeholder is not modelled.
- Bch.Annotate: object identity is stood for by value equality. Within one built registry the two coincide, since equal entries are both the last listed token with that id and symbol.
- Bch.ValidateAddress: lengths count Unicode characters, while JavaScript's `.length` counts UTF-16 code units. A character outside the Basic Multilingual Plane counts once here and twice in the code.
- Eos.ValidateAddress: lengths count Unicode characters, not UTF-16 code units, as for `Bch.ValidateAddress`.
- Eth.ValidateAddress: lengths count Unicode characters, not UTF-16 code units, as for `Bch.ValidateAddress`.
- Btc.ValidateAddress: lengths count Unicode characters, not UTF-16 code units, as for `Bch.ValidateAddress`.
- Eos.IsValidAccount: lengths count Unicode characters, not UTF-16 code units, as for `Bch.ValidateAddress`.
- Bch.WalletKeyOf: lengths count Unicode characters, not UTF-16 code units, as for `Bch.ValidateAddress`.
- Eos.GetAmt: uses the corrected `Eos.Decimals`, so a precision of 0 scales by 0 and a token key reads the parsed Newdex body. `Eos.GetAmtAsWritten` models the code.
- Eth.Subdomain: a stage naming an inherited object property of `net` (`toString`, `constructor`, or one added by `jsp.install()`) is treated like any other unknown stage, giving `undefined`. In the code `net[stage]` returns the inherited value.
- Bch.Info: an id naming an inherited object property of the id view (`toString` and the like) is treated as absent. In the code `ls.id[addr]` finds the inherited value.
- Eos.Info: a key naming an inherited object property of the token map (`toString` and the like) is treated as absent, giving `undefined`. In the code `cache.tokens[asset]` returns the inherited value.
- Eos.InfoLookup: states the lookup for own keys only, as for `Eos.Info`.
- Eos.Init: a net naming an inherited object property of the connection map is treated like an absent net, so a connection is built for it. In the code the inherited value counts as a cached connection.
- Eth.Connect: a key naming an inherited object property of the connection map is treated like an absent key, as for `Eos.Init`.
- Bch.Decimals: `nm` is the module's `self.nm`, which `index.js` sets from the file name ("bch"). When the file is loaded without `index.js`, `self.nm` is `undefined` and is not modelled.
- Bch.Send: takes `nm` as `Bch.Decimals` does.
- Eth.SendTx: a token naming an inherited object property of the token cache (`constructor` and the like) is treated as a missing entry, giving `TypeError`. In the code `self.cache.tokens[token]` finds the inherited value, its `address` is `undefined`, and nothing throws there.
- Eos.InfoAsWritten: a key naming an inherited object property of a cached token map is treated as absent, as for `Eos.Info`. In the code the lookup at lib/eos.js:200 returns the inherited value.
- Eos.DecimalsAsWritten: the failure for an unknown key covers own keys only. For a key naming an inherited property the code reads `precision` as `undefined` and does not fail.
- Eos.GetAmtAsWritten: the failure for an unknown key covers own keys only. For a key naming an inherited property the code calls `bignum(amt, undefined)` and does not fail.
- Eos.InfoAsWritten: a rejected `fetch` throws its own error rather than "Newdex fetch code: undefined". Like all HTTP failures, it is not modelled separately.

## Findings

| source | as written | input that shows it | evidently intended | confidence | as-written member | corrected member |
|---|---|---|---|---|---|---|
| lib/eth.js:26-35 | `init(net)` reads `net.isObj` with no default, while `getNewAddress`, `getBal`, `getAccount`, `getAmt`, `getContract` and `send` all call `init()` | `init()`: reading a property of `undefined` throws a `TypeError` | default to `opts.net`, as the BCH and EOS adapters do | high; not executed | Eth.InitAsWritten, Eth.BareInitAlwaysThrows | Eth.Init, Eth.InitReentry, Eth.SendTx |
| lib/eos.js:185-201 | `token.info` tests `ls.code` on the `fetch` Response, which is never parsed and has no `code` | any call with an empty cache: "Newdex fetch code: undefined" | read `code` and `data` from the parsed JSON body | high; not executed | Eos.InfoAsWritten, Eos.InfoAsWrittenNeverBuilds | Eos.Info, Eos.InfoLookup |
| lib/eos.js:92-100 | `if (asset)` treats a numeric precision of 0 as absent | `getAmt(amt, 0)` scales by 8 decimals | a numeric `asset` is used as given, 0 included | medium; not executed | Eos.DecimalsAsWritten, Eos.ZeroPrecisionScalesByEight, Eos.TokenKeyFailsAsWritten, Eos.GetAmtAsWritten | Eos.Decimals, Eos.DecimalsAgreeAwayFromZero, Eos.GetAmt, Eos.GetAmtAgreesAwayFromZero |
| lib/bch.js:155-156 | only `qty <= 0` is refused | `mint(id, "abc")` passes as `NaN`; `mint(id, 0.5)` passes | an integer greater than zero, as the error message states | high; not executed | Bch.MintQuantityAsWritten, Bch.MintGuardAdmitsNaN | Bch.MintQuantity, Bch.MintQuantityAcceptsPositive |

=== FILE: bch.dfy ===
/** The Bitcoin Cash / SLP adapter (lib/bch.js) with the SLP SDK, the REST
    endpoint and key derivation taken out: the token listing, the address's
    balances and unspent outputs, and the flat fee are inputs, and the
    decimal-to-minimal-unit conversion `utils.bignum` is the parameter `scale`. */
module Bch {
  import opened Wrappers
  import opened Text
  import Js
  import Validation
  import Index
  import CoinSelect

  // ---------------------------------------------------------------- addresses

  /** `addr.validate`: 64 characters and at least one hexadecimal character
      anywhere (the regex `/[0-9a-f]+/i` is not anchored). */
  function ValidateAddress(addr: string, err: Option<string>): (v: Validation.Verdict)
    ensures v == Validation.Answer(true) || v == Validation.Undefined
            <==> |addr| == 64 && HasSome(addr, IsHexDigit)
    ensures v.Thrown? <==> Validation.Truthy(err) && !(|addr| == 64 && HasSome(addr, IsHexDigit))
  {
    Validation.Report(|addr| == 64 && HasSome(addr, IsHexDigit), err)
  }

  /** Because the pattern is unanchored, one hexadecimal character among 64
      arbitrary ones is enough. */
  lemma OneHexCharacterSuffices(addr: string, i: nat)
    requires |addr| == 64 && i < 64 && IsHexDigit(addr[i])
    ensures ValidateAddress(addr, None) == Validation.Answer(true)
  {
  }

  /** What `setWallet` keeps as the wallet key: a 128-character string matching
      the case-sensitive `/[0-9a-f]+/` is taken as the key itself, anything else
      as a mnemonic whose seed the SDK derives. */
  datatype WalletKey = RawKey(hex: string) | SeedOf(mnemonic: string)

  function WalletKeyOf(mnemonic: string): (k: WalletKey)
    ensures k.RawKey? <==> |mnemonic| == 128 && HasSome(mnemonic, IsLowerHex)
    ensures k.RawKey? ==> k.hex == mnemonic
    ensures k.SeedOf? ==> k.mnemonic == mnemonic
  {
    if HasSome(mnemonic, IsLowerHex) && |mnemonic| == 128 then RawKey(mnemonic) else SeedOf(mnemonic)
  }

  // ----------------------------------------------------------- token registry

  /** One token of the SLP listing. `nm` and `addr` are absent from a listed token
      and written into it by `token.info`. */
  datatype SlpToken = SlpToken(id: string, symbol: string, decimalCount: int, name: string,
                               nm: Option<string>, addr: Option<string>)

  /** `cache.tokens`: the listing indexed by token id and by symbol. */
  datatype Tokens = Tokens(id: map<string, SlpToken>, sym: map<string, SlpToken>)

  /** The truthy values `cache.tokens` can hold: the `{}` stored before the listing
      is awaited, which stays behind when the listing rejects, or the two views.
      A falsy `cache.tokens` is `None`. */
  datatype Registry = Placeholder | Views(tokens: Tokens)

  function IdOf(t: SlpToken): string { t.id }
  function SymbolOf(t: SlpToken): string { t.symbol }

  /** Both views come from the same listing in one pass, last entry per key winning. */
  function Build(listing: seq<SlpToken>): (t: Tokens)
    ensures forall i :: 0 <= i < |listing| ==> listing[i].id in t.id && listing[i].symbol in t.sym
    ensures forall k :: k in t.id ==> t.id[k] in listing && t.id[k].id == k
    ensures forall s :: s in t.sym ==> t.sym[s] in listing && t.sym[s].symbol == s
  {
    var byId := Index.LastWins(listing, IdOf);
    var bySym := Index.LastWins(listing, SymbolOf);
    Index.LastWinsFiled(listing, IdOf);
    Index.LastWinsFiled(listing, SymbolOf);
    Tokens(byId, bySym)
  }

  /** `token.ls`: a truthy cache is returned as it is; a falsy one is first set to
      the placeholder, then, if the listing arrives, to the registry built from
      it. A rejected listing leaves the placeholder behind. */
  function Ls(cache: Option<Registry>, listing: Result<seq<SlpToken>>): (r: (Option<Registry>, Result<Registry>))
    ensures r.0.Some?
    ensures r.1.Ok? ==> r.0 == Some(r.1.value)
    ensures cache.Some? ==> r == (cache, Ok(cache.value))
    ensures cache.None? ==> (r.1.Ok? <==> listing.Ok?)
    ensures cache.None? && listing.Err? ==> r == (Some(Placeholder), Err(listing.msg))
    ensures cache.None? && listing.Ok? ==> r.1.value == Views(Build(listing.value))
  {
    match cache
    case Some(reg) => (cache, Ok(reg))
    case None =>
      match listing
      case Err(e) => (Some(Placeholder), Err(e))
      case Ok(ls) =>
        var reg := Views(Build(ls));
        (Some(reg), Ok(reg))
  }

  /** `token.set`: the cache is replaced wholesale, a falsy value included. */
  function Set(ls: Option<Registry>): (cache: Option<Registry>)
    ensures cache.None? <==> ls.None?
    ensures cache.Some? ==> cache.value == ls.value
  {
    ls
  }

  /** A second `ls` reads the cache: no listing is consulted again, whether the
      first one arrived or not. */
  lemma LsBuildsOnce(cache: Option<Registry>, first: Result<seq<SlpToken>>, second: Result<seq<SlpToken>>)
    ensures Ls(Ls(cache, first).0, second).0 == Ls(cache, first).0
    ensures Ls(Ls(cache, first).0, second).1 == Ok(Ls(cache, first).0.value)
  {
  }

  /** After `set` with a registry, `ls` hands back exactly what was set, whatever
      the ledger lists; after `set` with a falsy value the next `ls` rebuilds. */
  lemma SetThenLs(ls: Option<Registry>, listing: Result<seq<SlpToken>>)
    ensures ls.Some? ==> Ls(Set(ls), listing).1 == Ok(ls.value)
    ensures ls.None? && listing.Ok? ==> Ls(Set(ls), listing).1 == Ok(Views(Build(listing.value)))
  {
  }

  /** The two views of a built registry agree: the symbol of every token in the id
      view is a key of the symbol view and the id of every token in the symbol
      view is a key of the id view. */
  lemma BuildViewsAgree(listing: seq<SlpToken>)
    ensures forall k :: k in Build(listing).id ==> Build(listing).id[k].symbol in Build(listing).sym
    ensures forall s :: s in Build(listing).sym ==> Build(listing).sym[s].id in Build(listing).id
  {
    var byId := Index.LastWins(listing, IdOf);
    var bySym := Index.LastWins(listing, SymbolOf);
    forall k | k in byId ensures SymbolOf(byId[k]) in bySym {
      Index.LastWinsCrossKeys(listing, IdOf, SymbolOf, k);
    }
    forall s | s in bySym ensures IdOf(bySym[s]) in byId {
      Index.LastWinsCrossKeys(listing, SymbolOf, IdOf, s);
    }
  }

  /** `assign({nm, addr})` on the token object `tok` of the id view `addr`. The
      object is shared with the symbol view when it is the entry filed there under
      its symbol; within one built registry that is exactly when the two entries
      are equal, since both are then the last listed token with that id and
      symbol. */
  function Annotate(t: Tokens, addr: string, nm: string): (r: (Tokens, SlpToken))
    requires addr in t.id
    ensures r.1 == t.id[addr].(nm := Some(nm), addr := Some(addr))
    ensures r.0.id.Keys == t.id.Keys && r.0.sym.Keys == t.sym.Keys
    ensures r.0.id[addr] == r.1
    ensures forall k :: k in t.id && k != addr ==> r.0.id[k] == t.id[k]
    ensures forall s :: s in t.sym ==>
              r.0.sym[s] == (if s == t.id[addr].symbol && t.sym[s] == t.id[addr] then r.1 else t.sym[s])
  {
    var tok := t.id[addr];
    var tok' := tok.(nm := Some(nm), addr := Some(addr));
    var sym' := if tok.symbol in t.sym && t.sym[tok.symbol] == tok then t.sym[tok.symbol := tok'] else t.sym;
    (Tokens(t.id[addr := tok'], sym'), tok')
  }

  /** `token.info(addr)`: the id view's entry, with `nm` and `addr` written into
      the cached object and the object returned. An unknown id, or the placeholder
      left by a rejected listing (which has no `id`), reads a property of
      `undefined` and throws a `TypeError`; a rejected listing propagates. */
  function Info(cache: Option<Registry>, listing: Result<seq<SlpToken>>, addr: string, nm: string)
    : (r: (Option<Registry>, Result<SlpToken>))
    ensures Ls(cache, listing).1.Err? ==> r == (Ls(cache, listing).0, Err(Ls(cache, listing).1.msg))
    ensures Ls(cache, listing).1.Ok? ==>
              (r.1.Ok? <==> Ls(cache, listing).1.value.Views? && addr in Ls(cache, listing).1.value.tokens.id)
    ensures Ls(cache, listing).1 == Ok(Placeholder) ==> r == (Some(Placeholder), Err(Js.TypeError))
    ensures r.1.Ok? ==>
              var t := Ls(cache, listing).1.value.tokens;
              r.1.value == t.id[addr].(nm := Some(nm), addr := Some(addr)) &&
              r.0 == Some(Views(Annotate(t, addr, nm).0))
    ensures Ls(cache, listing).1.Ok? && r.1.Err? ==> r == (Ls(cache, listing).0, Err(Js.TypeError))
  {
    var (cache', ls) := Ls(cache, listing);
    match ls
    case Err(e) => (cache', Err(e))
    case Ok(Placeholder) => (cache', Err(Js.TypeError))
    case Ok(Views(t)) =>
      if addr !in t.id then (cache', Err(Js.TypeError))
      else
        var (t', tok) := Annotate(t, addr, nm);
        (Some(Views(t')), Ok(tok))
  }

  /** A rejected listing poisons the cache: every later `ls` returns the
      placeholder, whatever the ledger then lists, and every `info` throws until
      `set` replaces it. */
  lemma FailedListingSticks(e: string, later: Result<seq<SlpToken>>, addr: string, nm: string)
    ensures Ls(None, Err(e)).1.Err?
    ensures Ls(Ls(None, Err(e)).0, later).1 == Ok(Placeholder)
    ensures Info(Ls(None, Err(e)).0, later, addr, nm).1 == Err(Js.TypeError)
  {
  }

  /** `info` leaves the registry's shape alone and changes only the entry it read
      (and, in the symbol view, the same object): a second `info` of the same id
      returns the same annotated token. */
  lemma InfoTwice(cache: Option<Registry>, listing: Result<seq<SlpToken>>, addr: string, nm: string)
    requires Info(cache, listing, addr, nm).1.Ok?
    ensures var (c1, r1) := Info(cache, listing, addr, nm);
            Info(c1, listing, addr, nm) == (c1, r1)
  {
    var t := Ls(cache, listing).1.value.tokens;
    AnnotateTwice(t, addr, nm);
  }

  /** Writing the same `nm` and `addr` a second time changes nothing. */
  lemma AnnotateTwice(t: Tokens, addr: string, nm: string)
    requires addr in t.id
    ensures Annotate(Annotate(t, addr, nm).0, addr, nm) == Annotate(t, addr, nm)
  {
    var (t1, tok) := Annotate(t, addr, nm);
    var (t2, tok2) := Annotate(t1, addr, nm);
    assert tok2 == tok;
    assert t2.id == t1.id;
    assert t2.sym == t1.sym by {
      forall s | s in t1.sym ensures t2.sym[s] == t1.sym[s] {
      }
    }
  }

  /** The decimals `getAmt(amt, txid)` scales by: 8 (satoshis) unless a token id
      is given, in which case the `decimalCount` of what `token.info` returns;
      `nm` is the module's `self.nm`, which `info` writes into the token. */
  function Decimals(cache: Option<Registry>, listing: Result<seq<SlpToken>>, txid: Option<string>, nm: string)
    : (r: (Option<Registry>, Result<int>))
    ensures !Validation.Truthy(txid) ==> r == (cache, Ok(8))
    ensures Validation.Truthy(txid) ==>
              r.0 == Info(cache, listing, txid.value, nm).0 &&
              (r.1.Ok? <==> Info(cache, listing, txid.value, nm).1.Ok?) &&
              (r.1.Ok? ==> r.1.value == Info(cache, listing, txid.value, nm).1.value.decimalCount)
    ensures Validation.Truthy(txid) && r.1.Ok? ==>
              Ls(cache, listing).1.Ok? && Ls(cache, listing).1.value.Views? &&
              txid.value in Ls(cache, listing).1.value.tokens.id &&
              r.1.value == Ls(cache, listing).1.value.tokens.id[txid.value].decimalCount
  {
    if !Validation.Truthy(txid) then (cache, Ok(8))
    else
      var (cache', info) := Info(cache, listing, txid.value, nm);
      match info
      case Ok(tok) => (cache', Ok(tok.decimalCount))
      case Err(e) => (cache', Err(e))
  }

  // ------------------------------------------------------- token create / mint

  /** The fields of the object handed to `token.create`. */
  datatype TokenRequest = TokenRequest(symbol: Js.Value, decimals: Js.Value, name: Js.Value, uri: Js.Value, qty: Js.Value)

  /** The parameters passed on to the SDK once the guards pass (addresses and the
      funding key come from derivation and are not modelled). */
  datatype Creation = Creation(symbol: Js.Value, decimals: Js.Value, initialTokenQty: Js.Value, name: Js.Value, documentUri: Js.Value)

  /** The guards of `token.create`: each of symbol, decimals, name and uri, in that
      order, must be truthy (so decimals 0 is refused), and decimals must then be
      an integer number. */
  function CheckCreate(o: TokenRequest): (r: Result<Creation>)
    ensures r.Ok? <==> Js.Truthy(o.symbol) && Js.Truthy(o.decimals) && Js.Truthy(o.name) && Js.Truthy(o.uri) && Js.IsInteger(o.decimals)
    ensures !Js.Truthy(o.symbol) ==> r == Err("Cannot create token without symbol")
    ensures Js.Truthy(o.symbol) && !Js.Truthy(o.decimals) ==> r == Err("Cannot create token without decimals")
    ensures Js.Truthy(o.symbol) && Js.Truthy(o.decimals) && !Js.Truthy(o.name) ==> r == Err("Cannot create token without name")
    ensures Js.Truthy(o.symbol) && Js.Truthy(o.decimals) && Js.Truthy(o.name) && !Js.Truthy(o.uri) ==> r == Err("Cannot create token without uri")
    ensures Js.Truthy(o.symbol) && Js.Truthy(o.decimals) && Js.Truthy(o.name) && Js.Truthy(o.uri) && !Js.IsInteger(o.decimals) ==> r == Err("Decimals must be an integer")
    ensures r.Ok? ==> r.value.initialTokenQty == (if Js.Truthy(o.qty) then o.qty else Js.Num(0.0))
    ensures r.Ok? ==> r.value.symbol == o.symbol && r.value.decimals == o.decimals && r.value.name == o.name && r.value.documentUri == o.uri
  {
    if !Js.Truthy(o.symbol) then Err("Cannot create token without symbol")
    else if !Js.Truthy(o.decimals) then Err("Cannot create token without decimals")
    else if !Js.Truthy(o.name) then Err("Cannot create token without name")
    else if !Js.Truthy(o.uri) then Err("Cannot create token without uri")
    else if !Js.IsInteger(o.decimals) then Err("Decimals must be an integer")
    else Ok(Creation(o.symbol, o.decimals, if Js.Truthy(o.qty) then o.qty else Js.Num(0.0), o.name, o.uri))
  }

  const MintError: string := "Minting quantity must be an integer greater than zero"

  /** The `token.mint` guard as written: a string is passed through `parseInt`,
      then only `qty <= 0` is refused — `NaN` and fractions compare false and
      get through. */
  function MintQuantityAsWritten(qty: Js.Value): (r: Result<Js.Value>)
    ensures qty.Str? ==> (r.Ok? <==> !Js.AtMostZero(Js.ParseInt(qty.s)))
    ensures !qty.Str? ==> (r.Ok? <==> !Js.AtMostZero(qty))
    ensures r.Err? ==> r.msg == MintError
  {
    var q := if qty.Str? then Js.ParseInt(qty.s) else qty;
    if Js.AtMostZero(q) then Err(MintError) else Ok(q)
  }

  /** A non-numeric string becomes `NaN` and passes the guard as written, and so
      does a fractional quantity. */
  lemma MintGuardAdmitsNaN()
    ensures MintQuantityAsWritten(Js.Str("abc")) == Ok(Js.NaN)
    ensures MintQuantityAsWritten(Js.Num(0.5)) == Ok(Js.Num(0.5))
  {
    assert SpanNot("abc", c => !IsSpace(c)) == 0;
    assert SpanNot("abc", c => !IsDigit(c)) == 0;
  }

  /** The guard as its message states it: the quantity, after `parseInt` for a
      string, must be an integer greater than zero. */
  function MintQuantity(qty: Js.Value): (r: Result<Js.Value>)
    ensures r.Ok? ==> Js.IsInteger(r.value) && r.value.x > 0.0
    ensures r.Err? ==> r.msg == MintError
    ensures !qty.Str? ==> (r.Ok? <==> Js.IsInteger(qty) && qty.x > 0.0)
    ensures !qty.Str? && r.Ok? ==> r.value == qty
  {
    var q := if qty.Str? then Js.ParseInt(qty.s) else qty;
    if Js.IsInteger(q) && q.x > 0.0 then Ok(q) else Err(MintError)
  }

  /** Every positive decimal quantity, as a number or as its digits, is minted unchanged. */
  lemma MintQuantityAcceptsPositive(n: nat)
    requires n > 0
    ensures MintQuantity(Js.Num(n as real)) == Ok(Js.Num(n as real))
    ensures MintQuantity(Js.Str(NatToString(n))) == Ok(Js.Num(n as real))
  {
    Js.ParseIntDecimal(n);
  }

  // ------------------------------------------------------------------ balances

  datatype SlpBalance = SlpBalance(tokenId: string, balance: real)

  /** What `getBal` does: the native balance comes from the REST endpoint (not
      modelled); a token balance is looked up in the address's SLP balances. */
  datatype BalanceLookup = NativeBalance | TokenBalance(result: Result<real>)

  /** `tokenId == 0` with JavaScript's loose equality, for ids spelled as decimal
      digits: the id reads as zero when, around ASCII whitespace, it is all '0's
      (the empty string included). */
  predicate LooselyZero(tokenId: string) {
    var lead := SpanNot(tokenId, c => !IsSpace(c));
    var rest := tokenId[lead..];
    var digits := SpanNot(rest, c => c != '0');
    forall i :: digits <= i < |rest| ==> IsSpace(rest[i])
  }

  /** `asset.split(':')[1]` as it is rendered into a message. */
  function AssetSymbol(asset: string): string {
    Field(asset, ':', 1).GetOr("undefined")
  }

  /** `bals.filter(o => o.tokenId == 0)`: the matching balances, each as often
      as it is listed. */
  function Matching(bals: seq<SlpBalance>): (m: seq<SlpBalance>)
    ensures forall b :: b in m ==> b in bals && LooselyZero(b.tokenId)
    ensures forall b :: b in bals && LooselyZero(b.tokenId) ==> b in m
    ensures |m| <= |bals|
    ensures forall b :: multiset(m)[b] == if LooselyZero(b.tokenId) then multiset(bals)[b] else 0
  {
    if |bals| == 0 then []
    else
      assert bals == [bals[0]] + bals[1..];
      (if LooselyZero(bals[0].tokenId) then [bals[0]] else []) + Matching(bals[1..])
  }

  /** `getBal(asset, addr)`: `bch` in any case is the native balance; any other
      asset is looked up under the hard-wired token id 0, and anything but exactly
      one match throws, naming the `symbol` after the first ':' of the asset. */
  function GetBalance(asset: string, bals: seq<SlpBalance>): (r: BalanceLookup)
    ensures r.NativeBalance? <==> LowerString(asset) == "bch"
    ensures r.TokenBalance? ==> (r.result.Ok? <==> |Matching(bals)| == 1)
    ensures r.TokenBalance? && r.result.Ok? ==>
              Matching(bals)[0] in bals && LooselyZero(Matching(bals)[0].tokenId) && r.result.value == Matching(bals)[0].balance
    ensures r.TokenBalance? && |Matching(bals)| > 1 ==>
              r.result == Err("Multiple tokens with symbol " + AssetSymbol(asset) + " found!")
    ensures r.TokenBalance? && |Matching(bals)| == 0 ==>
              r.result == Err("No tokens with symbol " + AssetSymbol(asset) + " found!")
  {
    if LowerString(asset) == "bch" then NativeBalance
    else
      var symbol := AssetSymbol(asset);
      var token := Matching(bals);
      if |token| > 1 then TokenBalance(Err("Multiple tokens with symbol " + symbol + " found!"))
      else if |token| == 0 then TokenBalance(Err("No tokens with symbol " + symbol + " found!"))
      else TokenBalance(Ok(token[0].balance))
  }

  // ---------------------------------------------------------------------- send

  /** What `send` hands to the network: an SLP token transfer of `amount` minimal
      units, or the per-output BCH transactions of the coin selection. */
  datatype Payment = TokenTransfer(tokenId: string, to: string, amount: int) | CoinSpends(to: string, selection: CoinSelect.Selection)

  /** `send(token, to, amt)`: any token but "BCH" is an SLP transfer scaled by the
      token's decimals (an empty token id is falsy and gets 8); "BCH" is scaled to satoshis and funded by the coin
      selection over the sender's outputs. `nm` is the module's `self.nm`. */
  function Send(token: string, to: string, amt: string, scale: Js.Bignum, fee: int,
                utxos: seq<CoinSelect.Utxo>, cache: Option<Registry>, listing: Result<seq<SlpToken>>, nm: string)
    : (r: (Option<Registry>, Result<Payment>))
    ensures token == "BCH" ==> r.0 == cache && r.1.Ok? && r.1.value.CoinSpends? && r.1.value.to == to
    ensures token == "BCH" ==> r.1.value.selection == CoinSelect.Plan(utxos, scale(amt, 8), fee)
    ensures token == "" ==> r == (cache, Ok(TokenTransfer("", to, scale(amt, 8))))
    ensures token != "BCH" && token != "" ==> r.0 == Info(cache, listing, token, nm).0
    ensures token != "BCH" && token != "" ==> (r.1.Ok? <==> Info(cache, listing, token, nm).1.Ok?)
    ensures token != "BCH" && token != "" && r.1.Ok? ==>
              r.1.value == TokenTransfer(token, to, scale(amt, Ls(cache, listing).1.value.tokens.id[token].decimalCount))
  {
    if token != "BCH" then
      var (cache', dec) := Decimals(cache, listing, Some(token), nm);
      match dec
      case Ok(d) => (cache', Ok(TokenTransfer(token, to, scale(amt, d))))
      case Err(e) => (cache', Err(e))
    else
      (cache, Ok(CoinSpends(to, CoinSelect.Plan(utxos, scale(amt, 8), fee))))
  }
}

=== FILE: btc.dfy ===
/** The BlockIo adapter (lib/btc.js) for BTC, LTC and DOGE with the BlockIo
    client taken out: a client is built by the parameter `build` from the net and
    the lower-cased asset, and the environment's `BLOCKIO_PIN` is the parameter
    `pin`. */
module Btc {
  import opened Wrappers
  import opened Text
  import Js
  import Validation

  // ---------------------------------------------------------------- addresses

  /** `/^(1|3|bc1)/` */
  predicate KnownPrefix(addr: string) {
    StartsWith(addr, "1") || StartsWith(addr, "3") || StartsWith(addr, "bc1")
  }

  /** `[OIl0]` */
  predicate Confusable(c: char) {
    c == 'O' || c == 'I' || c == 'l' || c == '0'
  }

  /** `validateAddress`: three checks in turn, each rejecting on failure. */
  function ValidateAddress(addr: string): (ok: bool)
    ensures !KnownPrefix(addr) ==> !ok
    ensures HasSome(addr, Confusable) ==> !ok
    ensures |addr| < 26 || |addr| > 34 ==> !ok
    ensures ok <==> KnownPrefix(addr) && !HasSome(addr, Confusable) && 26 <= |addr| <= 34
  {
    if !KnownPrefix(addr) then false
    else if HasSome(addr, Confusable) then false
    else if |addr| < 26 || |addr| > 34 then false
    else true
  }

  /** A confusable character anywhere rejects, whatever the prefix. */
  lemma ConfusableAnywhereRejects(addr: string, i: nat)
    requires i < |addr| && Confusable(addr[i])
    ensures !ValidateAddress(addr)
  {
  }

  /** A 42-character segwit address (`bc1` + 39) is always rejected by the length
      check, so of the `bc1` family only unusually short strings can pass. */
  lemma LongSegwitRejected(addr: string)
    requires StartsWith(addr, "bc1") && |addr| == 42
    ensures !ValidateAddress(addr)
  {
  }

  /** A legacy-looking address passes: prefix `1`, 34 characters, none of `O`,
      `I`, `l`, `0`. */
  lemma LegacyAddressValidates(addr: string)
    requires |addr| == 34 && addr[0] == '1'
    requires forall i :: 0 <= i < |addr| ==> !Confusable(addr[i])
    ensures ValidateAddress(addr)
  {
    assert addr[..1] == "1";
  }

  // ----------------------------------------------------------------- sessions

  /** `opts`: the selected net and asset. */
  datatype BtcOpts = BtcOpts(net: string, asset: string)

  /** The first argument of `init`: none, an asset name (ignored), or an options
      object with the recognised members `net` and `asset`. */
  datatype InitArg = NoArg | AssetName(name: string) | OptsArg(net: Option<string>, asset: Option<string>)

  /** The module's mutable state: `opts` and the two-level client map `conn`. */
  datatype BtcState<H> = BtcState(opts: BtcOpts, conns: map<string, map<string, H>>)

  /** The state at load time. */
  function Initial<H>(): (st: BtcState<H>)
    ensures st.opts == BtcOpts("main", "BTC")
    ensures st.conns.Keys == {"main", "test", "local"}
    ensures forall n :: n in st.conns ==> st.conns[n] == map[]
  {
    BtcState(BtcOpts("main", "BTC"), map["main" := map[], "test" := map[], "local" := map[]])
  }

  const NoPin: string := "No PIN provided for BlockIO"

  /** `opts` after `self.opts.assign(asset)` for an object argument. */
  function Merge(opts: BtcOpts, arg: InitArg): (o: BtcOpts)
    ensures arg.OptsArg? ==> o == BtcOpts(arg.net.GetOr(opts.net), arg.asset.GetOr(opts.asset))
    ensures !arg.OptsArg? ==> o == opts
  {
    match arg
    case OptsArg(net, asset) => BtcOpts(net.GetOr(opts.net), asset.GetOr(opts.asset))
    case _ => opts
  }

  /** `init(asset)`: with no argument `asset.isObj` throws; an object is merged
      into `opts` (and stays merged whatever happens next); the client is looked
      up under `conn[opts.net][lc(opts.asset)]`, an unknown net throwing; a
      missing one is built only when a PIN is configured. */
  function Init<H>(st: BtcState<H>, arg: InitArg, pin: Option<string>, build: (string, string) -> H)
    : (r: (BtcState<H>, Result<H>))
    ensures arg.NoArg? ==> r == (st, Err(Js.TypeError))
    ensures !arg.NoArg? ==> r.0.opts == Merge(st.opts, arg)
    ensures r.1.Err? ==> r.0.conns == st.conns
    ensures !arg.NoArg? && Merge(st.opts, arg).net !in st.conns ==> r.1 == Err(Js.TypeError)
    ensures r.1.Ok? ==>
              var net, asset := r.0.opts.net, LowerString(r.0.opts.asset);
              net in r.0.conns && asset in r.0.conns[net] && r.1.value == r.0.conns[net][asset]
    ensures r.1.Ok? ==> r.0.conns.Keys == st.conns.Keys
    ensures r.1.Err? && r.1.msg == NoPin ==> !Validation.Truthy(pin)
    ensures !arg.NoArg? ==>
              var net, asset := Merge(st.opts, arg).net, LowerString(Merge(st.opts, arg).asset);
              net in st.conns ==>
                && (asset in st.conns[net] ==> r.1 == Ok(st.conns[net][asset]) && r.0.conns == st.conns)
                && (asset !in st.conns[net] && !Validation.Truthy(pin) ==> r.1 == Err(NoPin))
                && (asset !in st.conns[net] && Validation.Truthy(pin) ==> r.1 == Ok(build(net, asset)))
    ensures r.1.Ok? ==>
              var net, asset := r.0.opts.net, LowerString(r.0.opts.asset);
              && (forall n :: n in st.conns && n != net ==> r.0.conns[n] == st.conns[n])
              && r.0.conns[net].Keys == st.conns[net].Keys + {asset}
              && (forall a :: a in st.conns[net] ==> r.0.conns[net][a] == st.conns[net][a])
  {
    if arg.NoArg? then (st, Err(Js.TypeError))
    else
      var opts := Merge(st.opts, arg);
      var st' := st.(opts := opts);
      var net, asset := opts.net, LowerString(opts.asset);
      if net !in st.conns then (st', Err(Js.TypeError))
      else if asset in st.conns[net] then (st', Ok(st.conns[net][asset]))
      else if !Validation.Truthy(pin) then (st', Err(NoPin))
      else
        var c := build(net, asset);
        (st'.(conns := st.conns[net := st.conns[net][asset := c]]), Ok(c))
  }

  /** An asset name argument is ignored: the client comes from `opts` alone. */
  lemma InitIgnoresAssetName<H>(st: BtcState<H>, name: string, pin: Option<string>, build: (string, string) -> H)
    ensures Init(st, AssetName(name), pin, build) == Init(st, OptsArg(None, None), pin, build)
  {
  }

  /** A second call for the same net and asset hands back the same client, PIN
      or no PIN, and leaves the clients alone. */
  lemma InitReentry<H>(st: BtcState<H>, arg: InitArg, pin: Option<string>, pin2: Option<string>, build: (string, string) -> H)
    requires Init(st, arg, pin, build).1.Ok?
    ensures var (st1, h1) := Init(st, arg, pin, build);
            Init(st1, AssetName(""), pin2, build) == (st1, h1)
  {
  }

  /** Case does not matter: `BTC` and `btc` share one client. */
  lemma AssetCaseShared<H>(st: BtcState<H>, pin: Option<string>, build: (string, string) -> H)
    requires Init(st, OptsArg(None, Some("BTC")), pin, build).1.Ok?
    ensures var (st1, h1) := Init(st, OptsArg(None, Some("BTC")), pin, build);
            Init(st1, OptsArg(None, Some("btc")), None, build).1 == h1
  {
    assert LowerString("BTC") == "btc";
  }

  /** A missing PIN writes no client, so the same call with a PIN then succeeds
      and builds the client it would have built the first time. */
  lemma RetryAfterMissingPin<H>(st: BtcState<H>, arg: InitArg, pin: string, build: (string, string) -> H)
    requires Init(st, arg, None, build).1 == Err(NoPin)
    requires pin != ""
    ensures var (st1, _) := Init(st, arg, None, build);
            var (st2, h) := Init(st1, arg, Some(pin), build);
            h == Ok(build(st2.opts.net, LowerString(st2.opts.asset)))
  {
  }
}

=== FILE: coinselect.dfy ===
/** The BCH branch of `send`: the address's unspent outputs are sorted largest
    first and walked with a `remainder` (the amount still to pay, in satoshis).
    Every output reached while `remainder > 0` is spent by a transaction of its
    own with that output as the only input: either the whole output, less the
    flat fee, goes to the recipient, or `remainder` goes to the recipient and
    the rest, less the fee, comes back to the sender as change. Building,
    signing and broadcasting are not modelled: a planned transaction is the
    record of its input and outputs. */
module CoinSelect {
  import opened Wrappers

  /** One entry of the address's `utxo` listing. The listing is sorted by
      `amount` (the value in BCH) while the arithmetic uses `satoshis`. */
  datatype Utxo = Utxo(txid: string, vout: nat, amount: real, satoshis: int)

  /** One single-input transaction: spends `input`, pays `pay` to the recipient
      and, in the split branch only, `change` back to the sender. */
  datatype Spend = Spend(input: Utxo, pay: int, change: Option<int>)

  /** The planned transactions, in the order they are broadcast, and the
      remainder left when the walk stopped. */
  datatype Selection = Selection(spends: seq<Spend>, remainder: int)

  /** Value of all outputs of a planned transaction. */
  function Outputs(s: Spend): int {
    s.pay + s.change.GetOr(0)
  }

  /** The input of each planned transaction, in order. */
  function Inputs(ss: seq<Spend>): (r: seq<Utxo>)
    ensures |r| == |ss|
    ensures forall i :: 0 <= i < |ss| ==> r[i] == ss[i].input
  {
    seq(|ss|, i requires 0 <= i < |ss| => ss[i].input)
  }

  /** Total paid to the recipient by a sequence of transactions. */
  function Paid(ss: seq<Spend>): int {
    if |ss| == 0 then 0 else ss[0].pay + Paid(ss[1..])
  }

  predicate SortedByAmount(us: seq<Utxo>) {
    forall i, j :: 0 <= i < j < |us| ==> us[i].amount >= us[j].amount
  }

  function Insert(u: Utxo, us: seq<Utxo>): (r: seq<Utxo>)
    requires SortedByAmount(us)
    ensures SortedByAmount(r)
    ensures multiset(r) == multiset(us) + multiset{u}
  {
    if |us| == 0 || us[0].amount <= u.amount then [u] + us
    else
      var rest := Insert(u, us[1..]);
      assert us == [us[0]] + us[1..];
      HeadStaysFirst(us[0], u, us[1..], rest);
      [us[0]] + rest
  }

  /** A head at least as large as every element of `tail` and as `u` stays in
      front of any rearrangement of `tail` with `u` added. */
  lemma HeadStaysFirst(h: Utxo, u: Utxo, tail: seq<Utxo>, rest: seq<Utxo>)
    requires SortedByAmount([h] + tail) && SortedByAmount(rest)
    requires h.amount >= u.amount
    requires multiset(rest) == multiset(tail) + multiset{u}
    ensures SortedByAmount([h] + rest)
  {
    forall x | x in rest
      ensures h.amount >= x.amount
    {
      assert x in multiset(rest);
      if x != u {
        assert x in multiset(tail);
        var k :| 0 <= k < |tail| && tail[k] == x;
        assert ([h] + tail)[0] == h && ([h] + tail)[k + 1] == x;
      }
    }
    forall i, j | 0 <= i < j < |[h] + rest|
      ensures ([h] + rest)[i].amount >= ([h] + rest)[j].amount
    {
      if i == 0 {
        assert ([h] + rest)[j] == rest[j - 1] && rest[j - 1] in rest;
      } else {
        assert ([h] + rest)[i] == rest[i - 1] && ([h] + rest)[j] == rest[j - 1];
      }
    }
  }

  /** `utxos.sort((a, b) => a.amount < b.amount ? 1 : -1)`: largest amount first.
      The comparator never answers 0, so JavaScript leaves the order of equal
      amounts to the engine; this model keeps them in listing order. */
  function SortByAmount(us: seq<Utxo>): (r: seq<Utxo>)
    ensures SortedByAmount(r)
    ensures multiset(r) == multiset(us)
    ensures |r| == |us|
  {
    if |us| == 0 then []
    else
      assert us == [us[0]] + us[1..];
      Insert(us[0], SortByAmount(us[1..]))
  }

  /** One loop iteration on output `u` with `remainder` still to pay. */
  function Step(u: Utxo, remainder: int, fee: int): (Spend, int)
  {
    if remainder + fee >= u.satoshis then
      var amt := u.satoshis - fee;
      (Spend(u, amt, None), remainder - amt)
    else
      (Spend(u, remainder, Some(u.satoshis - remainder - fee)), 0)
  }

  /** The `for (var u of utxos) { if (remainder <= 0) break; ... }` loop. */
  function Walk(us: seq<Utxo>, remainder: int, fee: int): (s: Selection)
    ensures |s.spends| <= |us|
    ensures forall i :: 0 <= i < |s.spends| ==> s.spends[i].input == us[i]
    ensures |s.spends| < |us| ==> s.remainder <= 0
    decreases |us|
  {
    if |us| == 0 || remainder <= 0 then Selection([], remainder)
    else
      var (spend, next) := Step(us[0], remainder, fee);
      var rest := Walk(us[1..], next, fee);
      Selection([spend] + rest.spends, rest.remainder)
  }

  /** Each planned transaction conserves value: its outputs plus the fee are
      exactly the satoshis of its one input, in both branches. */
  lemma {:induction false} WalkConserves(us: seq<Utxo>, remainder: int, fee: int)
    ensures forall i :: 0 <= i < |Walk(us, remainder, fee).spends| ==>
              Outputs(Walk(us, remainder, fee).spends[i]) + fee == Walk(us, remainder, fee).spends[i].input.satoshis
    decreases |us|
  {
    if |us| > 0 && remainder > 0 {
      var (spend, next) := Step(us[0], remainder, fee);
      WalkConserves(us[1..], next, fee);
      var s := Walk(us, remainder, fee);
      assert s.spends == [spend] + Walk(us[1..], next, fee).spends;
    }
  }

  /** What was paid to the recipient is exactly what the remainder went down by. */
  lemma {:induction false} WalkPaid(us: seq<Utxo>, remainder: int, fee: int)
    ensures Paid(Walk(us, remainder, fee).spends) == remainder - Walk(us, remainder, fee).remainder
    decreases |us|
  {
    if |us| > 0 && remainder > 0 {
      var (spend, next) := Step(us[0], remainder, fee);
      WalkPaid(us[1..], next, fee);
      var s := Walk(us, remainder, fee);
      assert s.spends == [spend] + Walk(us[1..], next, fee).spends;
      assert s.spends[1..] == Walk(us[1..], next, fee).spends;
    }
  }

  /** Starting from a non-negative target the remainder never goes negative, so
      the recipient never receives more than the target. */
  lemma {:induction false} WalkNeverOverpays(us: seq<Utxo>, remainder: int, fee: int)
    requires remainder >= 0
    ensures Walk(us, remainder, fee).remainder >= 0
    ensures Paid(Walk(us, remainder, fee).spends) <= remainder
    decreases |us|
  {
    WalkPaid(us, remainder, fee);
    if |us| > 0 && remainder > 0 {
      var (spend, next) := Step(us[0], remainder, fee);
      WalkNeverOverpays(us[1..], next, fee);
    }
  }

  /** At most one transaction carries change: it is the last one, the walk ends
      with nothing left to pay, and the change is strictly positive. */
  lemma {:induction false} WalkChangeIsLast(us: seq<Utxo>, remainder: int, fee: int)
    ensures forall i :: 0 <= i < |Walk(us, remainder, fee).spends| && Walk(us, remainder, fee).spends[i].change.Some? ==>
              i == |Walk(us, remainder, fee).spends| - 1 &&
              Walk(us, remainder, fee).spends[i].change.value > 0 &&
              Walk(us, remainder, fee).remainder == 0
    decreases |us|
  {
    if |us| > 0 && remainder > 0 {
      var (spend, next) := Step(us[0], remainder, fee);
      WalkChangeIsLast(us[1..], next, fee);
      var rest := Walk(us[1..], next, fee);
      var s := Walk(us, remainder, fee);
      assert s.spends == [spend] + rest.spends;
      if spend.change.Some? {
        assert next == 0;
        assert rest.spends == [];
      }
      forall i | 1 <= i < |s.spends|
        ensures s.spends[i] == rest.spends[i - 1]
      {
      }
    }
  }

  /** Every output consumed was reached while something was still owed: the
      remainder before the i-th transaction is positive. */
  lemma {:induction false} WalkOnlyWhileOwed(us: seq<Utxo>, remainder: int, fee: int)
    ensures forall i :: 0 <= i < |Walk(us, remainder, fee).spends| ==>
              remainder - Paid(Walk(us, remainder, fee).spends[..i]) > 0
    decreases |us|
  {
    if |us| > 0 && remainder > 0 {
      var (spend, next) := Step(us[0], remainder, fee);
      WalkOnlyWhileOwed(us[1..], next, fee);
      var rest := Walk(us[1..], next, fee);
      var s := Walk(us, remainder, fee);
      assert s.spends == [spend] + rest.spends;
      forall i | 0 <= i < |s.spends|
        ensures remainder - Paid(s.spends[..i]) > 0
      {
        if i > 0 {
          assert s.spends[..i] == [spend] + rest.spends[..i - 1];
          assert Paid(s.spends[..i]) == spend.pay + Paid(rest.spends[..i - 1]);
          assert next == remainder - spend.pay;
        }
      }
    }
  }

  /** The coin selection of `send`: sort, then walk with `target` still to pay.
      Transactions come out largest amount first, spending the largest outputs
      in sorted order with none skipped, each a distinct listed output, and
      running out of outputs is not an error: when something is still owed at
      the end, every output has been spent. */
  function Plan(utxos: seq<Utxo>, target: int, fee: int): (s: Selection)
    ensures |s.spends| <= |utxos|
    ensures forall i, j :: 0 <= i < j < |s.spends| ==> s.spends[i].input.amount >= s.spends[j].input.amount
    ensures Inputs(s.spends) == SortByAmount(utxos)[..|s.spends|]
    ensures multiset(Inputs(s.spends)) <= multiset(utxos)
    ensures s.remainder > 0 ==> |s.spends| == |utxos|
  {
    var sorted := SortByAmount(utxos);
    var s := Walk(sorted, target, fee);
    InputsFromPrefix(sorted, s.spends);
    s
  }

  /** Spends whose inputs are the first outputs of a listing take a prefix of
      it, so they use each listed output at most once. */
  lemma InputsFromPrefix(us: seq<Utxo>, spends: seq<Spend>)
    requires |spends| <= |us|
    requires forall i :: 0 <= i < |spends| ==> spends[i].input == us[i]
    ensures Inputs(spends) == us[..|spends|]
    ensures multiset(Inputs(spends)) <= multiset(us)
  {
    var k := |spends|;
    assert Inputs(spends) == us[..k];
    assert us == us[..k] + us[k..];
    assert multiset(us) == multiset(us[..k]) + multiset(us[k..]);
  }

  /** Outputs of 100, 60 and 30 satoshis, a fee of 5 and a target of 120: the
      100 is spent whole (95 paid), the 60 is split (25 paid, 30 change), and
      the 30 is not touched, whatever order the listing came in. */
  lemma WorkedExample()
    ensures Plan([Utxo("a", 0, 0.0000003, 30), Utxo("b", 1, 0.000001, 100), Utxo("c", 0, 0.0000006, 60)], 120, 5)
         == Selection([Spend(Utxo("b", 1, 0.000001, 100), 95, None),
                       Spend(Utxo("c", 0, 0.0000006, 60), 25, Some(30))], 0)
  {
    var a := Utxo("a", 0, 0.0000003, 30);
    var b := Utxo("b", 1, 0.000001, 100);
    var c := Utxo("c", 0, 0.0000006, 60);
    WorkedExampleSort(a, b, c);
    WorkedExampleWalk(a, b, c);
  }

  lemma WorkedExampleSort(a: Utxo, b: Utxo, c: Utxo)
    requires a.amount < c.amount < b.amount
    ensures SortByAmount([a, b, c]) == [b, c, a]
  {
    assert [a, b, c][1..] == [b, c];
    SortPair(b, c);
    InsertLast(a, b, c);
  }

  lemma SortPair(b: Utxo, c: Utxo)
    requires c.amount < b.amount
    ensures SortByAmount([b, c]) == [b, c]
  {
    assert [b, c][1..] == [c];
    assert [c][1..] == [];
    assert SortByAmount([c]) == Insert(c, []) == [c];
    assert Insert(b, [c]) == [b] + [c];
  }

  lemma InsertLast(a: Utxo, b: Utxo, c: Utxo)
    requires a.amount < c.amount < b.amount
    ensures Insert(a, [b, c]) == [b, c, a]
  {
    InsertPast(a, [c]);
    InsertPast(a, [b, c]);
    assert [b, c][1..] == [c] && [c][1..] == [];
  }

  /** Inserting below the head keeps the head in front. */
  lemma InsertPast(u: Utxo, us: seq<Utxo>)
    requires SortedByAmount(us) && |us| > 0 && u.amount < us[0].amount
    ensures Insert(u, us) == [us[0]] + Insert(u, us[1..])
  {
  }

  lemma WorkedExampleWalk(a: Utxo, b: Utxo, c: Utxo)
    requires a.satoshis == 30 && b.satoshis == 100 && c.satoshis == 60
    ensures Walk([b, c, a], 120, 5) == Selection([Spend(b, 95, None), Spend(c, 25, Some(30))], 0)
  {
    assert [b, c, a][1..] == [c, a] && [c, a][1..] == [a];
    assert Step(b, 120, 5) == (Spend(b, 95, None), 25);
    assert Step(c, 25, 5) == (Spend(c, 25, Some(30)), 0);
    assert Walk([a], 0, 5) == Selection([], 0);
    assert Walk([c, a], 25, 5) == Selection([Spend(c, 25, Some(30))], 0);
  }

  /** An output worth less than the fee is still spent whole: its payment is
      negative and the remainder grows by the shortfall. */
  lemma DustOutputPaysNegative(u: Utxo, remainder: int, fee: int)
    requires remainder > 0 && u.satoshis < fee
    ensures Walk([u], remainder, fee).spends == [Spend(u, u.satoshis - fee, None)]
    ensures Walk([u], remainder, fee).remainder > remainder
  {
  }
}

=== FILE: eos.dfy ===
/** The EOS adapter (lib/eos.js) with eosjs, dfuse and the Newdex endpoint taken
    out: a connection is built by the parameter `build`, `api.transact` is the
    parameter `transact`, the Newdex symbol list is an input, and the adapter's
    account (`EOS_ACCT`) is the parameter `acct`. */
module Eos {
  import opened Wrappers
  import opened Text
  import Js
  import Validation
  import Index
  import Sessions

  // ---------------------------------------------------------------- addresses

  /** `[a-z1-5.]`: the characters of an EOS account name. */
  predicate IsNameChar(c: char) {
    IsLower(c) || '1' <= c <= '5' || c == '.'
  }

  /** `[a-z1-5.]` under the `i` flag. */
  predicate IsNameCharAnyCase(c: char) {
    IsNameChar(c) || IsUpper(c)
  }

  /** A lower-case first character already satisfies the unanchored third test. */
  lemma ThirdTestRedundant(addr: string)
    ensures |addr| > 0 && IsLower(addr[0]) ==> HasSome(addr, IsNameCharAnyCase)
  {
    if |addr| > 0 {
      assert IsLower(addr[0]) ==> IsNameCharAnyCase(addr[0]);
    }
  }

  /** `addr.validate`: length 12, a first character in `a-z`, and some character
      matching `/[a-z1-5.]+/i`; only the first two tests can fail together with
      the third passing, so validity is decided by length and first character. */
  function ValidateAddress(addr: string, err: Option<string>): (v: Validation.Verdict)
    ensures v == Validation.Answer(true) || v == Validation.Undefined
            <==> |addr| == 12 && IsLower(addr[0])
    ensures v.Thrown? <==> Validation.Truthy(err) && !(|addr| == 12 && IsLower(addr[0]))
  {
    ThirdTestRedundant(addr);
    Validation.Report(|addr| == 12 && (|addr| > 0 && IsLower(addr[0])) && HasSome(addr, IsNameCharAnyCase), err)
  }

  /** `isValid.acct(s)`: anything goes on the `local` net; elsewhere the whole
      string must be twelve characters of `[a-z1-5.]`. */
  function IsValidAccount(s: string, net: string): (ok: bool)
    ensures net == "local" ==> ok
    ensures net != "local" && ok ==> |s| == 12
    ensures net != "local" && ok ==> forall i :: 0 <= i < |s| ==> IsNameChar(s[i])
    ensures net != "local" && |s| == 12 && (forall i :: 0 <= i < |s| ==> IsNameChar(s[i])) ==> ok
  {
    net == "local" || (|s| == 12 && forall i :: 0 <= i < |s| ==> IsNameChar(s[i]))
  }

  /** Off the `local` net a valid account name that starts with a letter also
      passes `addr.validate`. */
  lemma AccountStartingWithLetterValidates(s: string, net: string)
    requires net != "local" && IsValidAccount(s, net) && IsLower(s[0])
    ensures ValidateAddress(s, None) == Validation.Answer(true)
  {
  }

  /** The two checks disagree in both directions: `addr.validate` admits upper
      case after the first character and `isValid.acct` admits a leading digit. */
  lemma ValidateAndAccountDiffer()
    ensures ValidateAddress("aaaaaaaaaaaA", None) == Validation.Answer(true)
    ensures !IsValidAccount("aaaaaaaaaaaA", "main")
    ensures ValidateAddress("111111111111", None) == Validation.Answer(false)
    ensures IsValidAccount("111111111111", "main")
  {
    var upper := "aaaaaaaaaaaA";
    assert !IsNameChar(upper[11]);
    var digits := "111111111111";
    assert !IsLower(digits[0]);
  }

  // ----------------------------------------------------------------- sessions

  /** An options argument: a string (whose properties the adapter never reads)
      or an object with the recognised members `net` and `auth`. */
  datatype Opts = OptsText(text: string) | OptsObject(net: Option<string>, auth: Option<string>)

  /** The default `{}`. */
  const NoOpts: Opts := OptsObject(None, None)

  /** The module's mutable state: `opts.net` and `cache.conn`. */
  datatype EosState<H> = EosState(net: string, conns: map<string, H>)

  /** `init(net)`: an object is merged into `opts`, a string is ignored; the
      connection is then looked up, or built, under `opts.net`. */
  function Init<H>(st: EosState<H>, arg: Opts, build: string -> H): (r: (EosState<H>, H))
    ensures r.0.net == (if arg.OptsObject? && arg.net.Some? then arg.net.value else st.net)
    ensures r.0.net in r.0.conns && r.1 == r.0.conns[r.0.net]
    ensures r.0.net in st.conns ==> r.0.conns == st.conns
    ensures r.0.net !in st.conns ==> r.0.conns == st.conns[r.0.net := build(r.0.net)]
  {
    var net := if arg.OptsObject? && arg.net.Some? then arg.net.value else st.net;
    var o := Sessions.Open(st.conns, net, build);
    (EosState(net, o.cache), o.handle)
  }

  /** A string argument behaves like no argument at all. */
  lemma InitIgnoresText<H>(st: EosState<H>, text: string, build: string -> H)
    ensures Init(st, OptsText(text), build) == Init(st, NoOpts, build)
  {
  }

  /** Re-entering on the same net hands back the same connection and builds nothing. */
  lemma InitReentry<H>(st: EosState<H>, first: Opts, second: Opts, build: string -> H)
    requires !(second.OptsObject? && second.net.Some?) || second.net.value == Init(st, first, build).0.net
    ensures Init(Init(st, first, build).0, second, build).1 == Init(st, first, build).1
    ensures Init(Init(st, first, build).0, second, build).0 == Init(st, first, build).0
  {
  }

  // --------------------------------------------------------------------- exec

  datatype Authorization = Authorization(actor: string, permission: string)

  /** One action of a transaction. */
  datatype Action<D> = Action(account: string, name: string, authorization: seq<Authorization>, data: D)

  /** What `api.transact` does with a transaction. */
  datatype Outcome = Committed(receipt: string) | Rejected(message: string)

  /** What `exec` returns or throws; a thrown error carries the action. */
  datatype ExecResult<D> = Done(receipt: string) | Failed(message: string, action: Action<D>)

  /** `auth || ACCT`. With string options the ternary reads the hoisted local
      `auth`, which is still `undefined`, so the account acts. */
  function Actor(opts: Opts, acct: string): (actor: string)
    ensures opts.OptsText? ==> actor == acct
    ensures opts.OptsObject? && Validation.Truthy(opts.auth) ==> actor == opts.auth.value
    ensures opts.OptsObject? && !Validation.Truthy(opts.auth) ==> actor == acct
  {
    match opts
    case OptsText(_) => acct
    case OptsObject(_, auth) => if Validation.Truthy(auth) then auth.value else acct
  }

  /** The action `exec(name, data, opts)` submits. */
  function ExecAction<D>(name: string, data: D, opts: Opts, acct: string): (a: Action<D>)
    ensures a.account == acct && a.name == name && a.data == data
    ensures |a.authorization| == 1 && a.authorization[0].permission == "active"
    ensures a.authorization[0].actor == Actor(opts, acct)
  {
    Action(acct, name, [Authorization(Actor(opts, acct), "active")], data)
  }

  const Preamble: string := "assertion failure with message: "

  /** The error-message clean-up of `exec`: the first occurrence of the preamble
      is cut out; a message without it is left alone. */
  function StripPreamble(msg: string): (r: string)
    ensures !Contains(msg, Preamble) ==> r == msg
    ensures Contains(msg, Preamble) ==> |r| + |Preamble| == |msg|
    ensures Contains(msg, Preamble) ==>
              var i := IndexOf(msg, Preamble).value;
              i <= |r| && msg == r[..i] + Preamble + r[i..]
  {
    match IndexOf(msg, Preamble)
    case None => msg
    case Some(i) =>
      var r := ReplaceFirst(msg, Preamble, "");
      assert r == msg[..i] + msg[i + |Preamble|..];
      assert r[..i] == msg[..i];
      assert r[i..] == msg[i + |Preamble|..];
      assert msg == msg[..i] + msg[i..i + |Preamble|] + msg[i + |Preamble|..];
      r
  }

  /** A message the chain prefixed with the preamble comes out as the contract's
      own message. */
  lemma StripPrefixed(m: string)
    ensures StripPreamble(Preamble + m) == m
  {
    var s := Preamble + m;
    assert OccursAt(s, Preamble, 0);
    var r := StripPreamble(s);
    assert IndexOf(s, Preamble) == Some(0);
    assert s == r[..0] + Preamble + r[0..];
    assert r == s[|Preamble|..];
  }

  /** `exec(name, data, opts)`: `init(opts)`, then the action is transacted;
      a rejection is rethrown with the preamble stripped and the action attached. */
  function Exec<D, H>(st: EosState<H>, name: string, data: D, opts: Opts, acct: string,
                      build: string -> H, transact: Action<D> -> Outcome): (r: (EosState<H>, ExecResult<D>))
    ensures r.0 == Init(st, opts, build).0
    ensures r.1.Done? <==> transact(ExecAction(name, data, opts, acct)).Committed?
    ensures r.1.Done? ==> r.1.receipt == transact(ExecAction(name, data, opts, acct)).receipt
    ensures r.1.Failed? ==> r.1.action == ExecAction(name, data, opts, acct)
    ensures r.1.Failed? ==> r.1.message == StripPreamble(transact(r.1.action).message)
  {
    var (st', _) := Init(st, opts, build);
    var action := ExecAction(name, data, opts, acct);
    match transact(action)
    case Committed(receipt) => (st', Done(receipt))
    case Rejected(message) => (st', Failed(StripPreamble(message), action))
  }

  /** A contract assertion reaches the caller as the bare assertion message. */
  lemma ExecReportsAssertionMessage<D, H>(st: EosState<H>, name: string, data: D, opts: Opts, acct: string,
                                         build: string -> H, transact: Action<D> -> Outcome, m: string)
    requires transact(ExecAction(name, data, opts, acct)) == Rejected(Preamble + m)
    ensures Exec(st, name, data, opts, acct, build, transact).1.Failed?
    ensures Exec(st, name, data, opts, acct, build, transact).1.message == m
  {
    StripPrefixed(m);
  }

  // -------------------------------------------------------------- token.info

  /** One entry of the Newdex symbol list. */
  datatype NewdexSymbol = NewdexSymbol(contract: string, currency: string, currencyPrecision: int)

  /** The parsed body of the Newdex reply. */
  datatype NewdexBody = NewdexBody(code: int, data: seq<NewdexSymbol>)

  /** An entry of `cache.tokens`. */
  datatype TokenEntry = TokenEntry(contract: string, symbol: string, precision: int)

  function KeyOf(s: NewdexSymbol): string {
    s.contract + ":" + s.currency
  }

  function EntryOf(s: NewdexSymbol): TokenEntry {
    TokenEntry(s.contract, s.currency, s.currencyPrecision)
  }

  /** The reduce over the symbol list: keyed `contract:currency`, later entries
      winning. */
  function BuildTokens(data: seq<NewdexSymbol>): (m: map<string, TokenEntry>)
    ensures forall i :: 0 <= i < |data| ==> KeyOf(data[i]) in m
    ensures forall k :: k in m ==> exists i :: 0 <= i < |data| && KeyOf(data[i]) == k && m[k] == EntryOf(data[i])
    ensures forall k :: k in m ==> forall j :: 0 <= j < |data| && KeyOf(data[j]) == k ==>
              exists i :: j <= i < |data| && m[k] == EntryOf(data[i])
  {
    var last := Index.LastWins(data, KeyOf);
    map k | k in last :: EntryOf(last[k])
  }

  /** The entries built from a listing are the listing's own, and the entry for
      a key is the one the last listing entry with that key gives. */
  lemma BuildTokensLastWins(data: seq<NewdexSymbol>, i: nat)
    requires i < |data|
    requires forall j :: i < j < |data| ==> KeyOf(data[j]) != KeyOf(data[i])
    ensures BuildTokens(data)[KeyOf(data[i])] == EntryOf(data[i])
  {
    assert Index.LastIndex(data, KeyOf, KeyOf(data[i])) == i;
  }

  /** `token.info(asset)` as written. The reply of `fetch` is the Response
      object, never parsed, and has no `code`; `undefined != 200` holds, so with
      an empty cache every call throws and the cache is never filled. */
  function InfoAsWritten(cache: Option<map<string, TokenEntry>>, body: NewdexBody, asset: string)
    : (r: (Option<map<string, TokenEntry>>, Result<Option<TokenEntry>>))
    ensures r.0 == cache
    ensures cache.None? ==> r.1 == Err("Newdex fetch code: undefined")
    ensures cache.Some? ==> r.1 == Ok(if asset in cache.value then Some(cache.value[asset]) else None)
  {
    match cache
    case Some(m) => (cache, Ok(if asset in m then Some(m[asset]) else None))
    case None => (cache, Err("Newdex fetch code: undefined"))
  }

  /** Whatever Newdex answers, an empty cache stays empty and the call throws. */
  lemma InfoAsWrittenNeverBuilds(body: NewdexBody, asset: string)
    ensures InfoAsWritten(None, body, asset).0.None?
    ensures InfoAsWritten(None, body, asset).1.Err?
  {
  }

  /** `token.info(asset)` reading `code` and `data` from the parsed body: the map
      is built on the first call with a 200 body and looked up; an unknown key
      yields `undefined` (`None`), not an error. */
  function Info(cache: Option<map<string, TokenEntry>>, body: NewdexBody, asset: string)
    : (r: (Option<map<string, TokenEntry>>, Result<Option<TokenEntry>>))
    ensures cache.Some? ==> r.0 == cache
    ensures cache.None? && body.code != 200 ==> r == (None, Err("Newdex fetch code: " + IntToString(body.code)))
    ensures cache.None? && body.code == 200 ==> r.0 == Some(BuildTokens(body.data))
    ensures r.1.Ok? ==> r.0.Some? && r.1.value == (if asset in r.0.value then Some(r.0.value[asset]) else None)
  {
    match cache
    case Some(m) => (cache, Ok(if asset in m then Some(m[asset]) else None))
    case None =>
      if body.code != 200 then (None, Err("Newdex fetch code: " + IntToString(body.code)))
      else
        var m := BuildTokens(body.data);
        (Some(m), Ok(if asset in m then Some(m[asset]) else None))
  }

  /** The map is built once: a later call reads the cache whatever Newdex says. */
  lemma InfoBuildsOnce(cache: Option<map<string, TokenEntry>>, first: NewdexBody, second: NewdexBody, a: string, b: string)
    requires Info(cache, first, a).1.Ok?
    ensures Info(Info(cache, first, a).0, second, b).0 == Info(cache, first, a).0
  {
  }

  /** A key no listed symbol carries is `undefined`, and a listed one maps to an
      entry with its contract and symbol. */
  lemma InfoLookup(data: seq<NewdexSymbol>, asset: string)
    ensures (forall i :: 0 <= i < |data| ==> KeyOf(data[i]) != asset) ==>
              Info(None, NewdexBody(200, data), asset).1 == Ok(None)
    ensures (exists i :: 0 <= i < |data| && KeyOf(data[i]) == asset) ==>
              var e := Info(None, NewdexBody(200, data), asset).1;
              e.Ok? && e.value.Some? && e.value.value.contract + ":" + e.value.value.symbol == asset
  {
    var m := BuildTokens(data);
    if asset in m {
      var i :| 0 <= i < |data| && KeyOf(data[i]) == asset && m[asset] == EntryOf(data[i]);
    }
  }

  // ----------------------------------------------------------- getAmt / send

  /** The `asset` argument of `getAmt`: absent, a number of decimals, or a
      token key. */
  datatype AssetArg = NoAsset | Precision(n: int) | TokenKey(key: string)

  predicate AssetTruthy(a: AssetArg) {
    match a
    case NoAsset => false
    case Precision(n) => n != 0
    case TokenKey(k) => k != ""
  }

  /** A `token.info` behaviour: `InfoAsWritten` or the corrected `Info`. */
  type InfoFn = (Option<map<string, TokenEntry>>, NewdexBody, string) -> (Option<map<string, TokenEntry>>, Result<Option<TokenEntry>>)

  /** The decimals `getAmt(amt, asset)` scales by, as written: 8 unless `asset`
      is truthy, so a precision of 0 also gives 8. A key goes through
      `token.info` as written, which throws while the cache is empty, and a key
      the token map does not hold makes `info.precision` throw. */
  function DecimalsAsWritten(asset: AssetArg, cache: Option<map<string, TokenEntry>>, body: NewdexBody)
    : (r: (Option<map<string, TokenEntry>>, Result<int>))
    ensures !AssetTruthy(asset) ==> r == (cache, Ok(8))
    ensures asset.Precision? && asset.n != 0 ==> r == (cache, Ok(asset.n))
    ensures asset.TokenKey? && asset.key != "" ==> r.0 == cache
    ensures asset.TokenKey? && asset.key != "" && cache.None? ==> r.1 == Err("Newdex fetch code: undefined")
    ensures asset.TokenKey? && asset.key != "" && cache.Some? ==>
              (r.1.Ok? <==> asset.key in cache.value) &&
              (r.1.Ok? ==> r.1.value == cache.value[asset.key].precision)
  {
    match asset
    case NoAsset => (cache, Ok(8))
    case Precision(n) => if n != 0 then (cache, Ok(n)) else (cache, Ok(8))
    case TokenKey(k) => if k == "" then (cache, Ok(8)) else TokenDecimals(InfoAsWritten, cache, body, k)
  }

  /** `info.precision` of what `info` returns for `key`: an error propagates, and
      `undefined` (an unknown key) throws a `TypeError`. */
  function TokenDecimals(info: InfoFn, cache: Option<map<string, TokenEntry>>, body: NewdexBody, key: string)
    : (r: (Option<map<string, TokenEntry>>, Result<int>))
    ensures r.0 == info(cache, body, key).0
    ensures r.1.Ok? <==> info(cache, body, key).1.Ok? && info(cache, body, key).1.value.Some?
    ensures r.1.Ok? ==> r.1.value == info(cache, body, key).1.value.value.precision
    ensures info(cache, body, key).1.Ok? && info(cache, body, key).1.value.None? ==> r.1 == Err(Js.TypeError)
    ensures info(cache, body, key).1.Err? ==> r.1 == Err(info(cache, body, key).1.msg)
  {
    var (cache', found) := info(cache, body, key);
    match found
    case Err(e) => (cache', Err(e))
    case Ok(None) => (cache', Err(Js.TypeError))
    case Ok(Some(t)) => (cache', Ok(t.precision))
  }

  /** A token whose precision is 0 is scaled by 8 decimals. */
  lemma ZeroPrecisionScalesByEight(cache: Option<map<string, TokenEntry>>, body: NewdexBody)
    ensures DecimalsAsWritten(Precision(0), cache, body).1 == Ok(8)
  {
  }

  /** As written, a token key never gets its decimals while the cache is empty,
      whatever Newdex answers. */
  lemma TokenKeyFailsAsWritten(key: string, body: NewdexBody)
    requires key != ""
    ensures DecimalsAsWritten(TokenKey(key), None, body) == (None, Err("Newdex fetch code: undefined"))
  {
  }

  /** The decimals with a numeric `asset` always taken as given, and a key looked
      up through the corrected `token.info`. */
  function Decimals(asset: AssetArg, cache: Option<map<string, TokenEntry>>, body: NewdexBody)
    : (r: (Option<map<string, TokenEntry>>, Result<int>))
    ensures asset.Precision? ==> r == (cache, Ok(asset.n))
    ensures asset.NoAsset? || asset == TokenKey("") ==> r == (cache, Ok(8))
    ensures asset.TokenKey? && asset.key != "" ==> r == TokenDecimals(Info, cache, body, asset.key)
    ensures asset.TokenKey? && asset.key != "" && cache.None? && body.code == 200 ==>
              (r.1.Ok? <==> asset.key in BuildTokens(body.data)) &&
              (r.1.Ok? ==> r.1.value == BuildTokens(body.data)[asset.key].precision)
  {
    match asset
    case NoAsset => (cache, Ok(8))
    case Precision(n) => (cache, Ok(n))
    case TokenKey(k) => if k == "" then (cache, Ok(8)) else TokenDecimals(Info, cache, body, k)
  }

  /** Once the token map is cached, the corrected selection differs from the code
      only at precision 0. */
  lemma DecimalsAgreeAwayFromZero(asset: AssetArg, cache: Option<map<string, TokenEntry>>, body: NewdexBody)
    requires asset != Precision(0) && cache.Some?
    ensures Decimals(asset, cache, body) == DecimalsAsWritten(asset, cache, body)
  {
  }

  /** `getAmt(amt, asset)`: the amount scaled by `utils.bignum` to the selected
      decimals. */
  function GetAmt(amt: string, asset: AssetArg, cache: Option<map<string, TokenEntry>>, body: NewdexBody,
                  scale: Js.Bignum): (r: (Option<map<string, TokenEntry>>, Result<int>))
    ensures r.0 == Decimals(asset, cache, body).0
    ensures r.1.Ok? <==> Decimals(asset, cache, body).1.Ok?
    ensures r.1.Ok? ==> r.1.value == scale(amt, Decimals(asset, cache, body).1.value)
  {
    var (cache', dec) := Decimals(asset, cache, body);
    match dec
    case Ok(d) => (cache', Ok(scale(amt, d)))
    case Err(e) => (cache', Err(e))
  }

  /** `getAmt(amt, asset)` as written: the amount scaled to the decimals
      `DecimalsAsWritten` selects, so a precision of 0 scales by 8 and a token
      key fails while the token map is not cached. */
  function GetAmtAsWritten(amt: string, asset: AssetArg, cache: Option<map<string, TokenEntry>>, body: NewdexBody,
                           scale: Js.Bignum): (r: (Option<map<string, TokenEntry>>, Result<int>))
    ensures asset == Precision(0) ==> r == (cache, Ok(scale(amt, 8)))
    ensures !AssetTruthy(asset) ==> r == (cache, Ok(scale(amt, 8)))
    ensures asset.Precision? && asset.n != 0 ==> r == (cache, Ok(scale(amt, asset.n)))
    ensures asset.TokenKey? && asset.key != "" && cache.None? ==> r == (cache, Err("Newdex fetch code: undefined"))
    ensures asset.TokenKey? && asset.key != "" && cache.Some? ==>
              r.0 == cache &&
              (r.1.Ok? <==> asset.key in cache.value) &&
              (r.1.Ok? ==> r.1.value == scale(amt, cache.value[asset.key].precision))
  {
    var (cache', dec) := DecimalsAsWritten(asset, cache, body);
    match dec
    case Ok(d) => (cache', Ok(scale(amt, d)))
    case Err(e) => (cache', Err(e))
  }

  /** Once the token map is cached, the corrected `getAmt` differs from the code
      only at precision 0, where the code scales by 8 and the corrected one by 0. */
  lemma GetAmtAgreesAwayFromZero(amt: string, asset: AssetArg, cache: Option<map<string, TokenEntry>>, body: NewdexBody,
                                 scale: Js.Bignum)
    requires cache.Some?
    ensures asset != Precision(0) ==> GetAmt(amt, asset, cache, body, scale) == GetAmtAsWritten(amt, asset, cache, body, scale)
    ensures asset == Precision(0) ==>
              GetAmt(amt, asset, cache, body, scale) == (cache, Ok(scale(amt, 0))) &&
              GetAmtAsWritten(amt, asset, cache, body, scale) == (cache, Ok(scale(amt, 8)))
  {
    if asset != Precision(0) {
      DecimalsAgreeAwayFromZero(asset, cache, body);
    }
  }

  /** `send`'s asset alias: the bare `EOS` names the system token. */
  function SendAsset(asset: string): (r: string)
    ensures asset == "EOS" ==> r == "eosio.token:EOS"
    ensures asset != "EOS" ==> r == asset
    ensures r != "EOS"
  {
    if asset == "EOS" then "eosio.token:EOS" else asset
  }

  /** Aliasing is idempotent. */
  lemma SendAssetIdempotent(asset: string)
    ensures SendAsset(SendAsset(asset)) == SendAsset(asset)
  {
  }
}

=== FILE: eos_quantity.dfy ===
/** The quantity text of the EOS `token.mint` action: `formatBySym` renders a
    quantity with exactly as many decimals as the token's `supply` column shows,
    truncating extra digits rather than rounding, then appends the symbol. */
module EosQuantity {
  import opened Wrappers
  import opened Text
  import Js
  import EosTable

  /** A non-negative quantity as `toString` renders it: the integer part and the
      digits after the point (empty when there is no point). */
  datatype Qty = Qty(whole: nat, frac: string)

  predicate ValidQty(q: Qty) {
    AllDigits(q.frac)
  }

  /** `supply.split(/\s+/)`, first two pieces: the amount text and the symbol,
      `None` standing for `undefined` when the supply has no whitespace. */
  function SupplyParts(supply: string): (parts: (string, Option<string>))
    ensures |parts.0| <= |supply| && parts.0 == supply[..|parts.0|]
    ensures forall i :: 0 <= i < |parts.0| ==> !IsSpace(parts.0[i])
    ensures parts.1.None? <==> |parts.0| == |supply|
    ensures parts.1.Some? ==> forall i :: 0 <= i < |parts.1.value| ==> !IsSpace(parts.1.value[i])
  {
    var n := SpanNot(supply, IsSpace);
    if n == |supply| then (supply, None)
    else
      var rest := supply[n..];
      var m := SpanNot(rest, c => !IsSpace(c));
      var after := rest[m..];
      (supply[..n], Some(after[..SpanNot(after, IsSpace)]))
  }

  /** The symbol as it is concatenated into the result. */
  function SymbolText(supply: string): string {
    SupplyParts(supply).1.GetOr("undefined")
  }

  /** `q.split('.')[1].length`: the digits between the first '.' and any second
      one; `None` when the amount has no '.'. */
  function SupplyDecimals(q: string): (d: Option<nat>)
    ensures d.None? <==> forall i :: 0 <= i < |q| ==> q[i] != '.'
    ensures d.Some? ==> d.value < |q|
  {
    var n := SpanNot(q, c => c == '.');
    if n == |q| then None else Some(SpanNot(q[n + 1..], c => c == '.'))
  }

  /** `(d || '').substr(0, dec).padEnd(dec, '0')`: the first `dec` digits,
      padded with zeros when there are fewer. */
  function TruncPad(frac: string, dec: nat): (f: string)
    ensures |f| == dec
    ensures forall k :: 0 <= k < dec ==> f[k] == (if k < |frac| then frac[k] else '0')
  {
    if dec <= |frac| then frac[..dec] else frac + seq(dec - |frac|, _ => '0')
  }

  /** `f` counts the 1/p units in v/n truncated toward zero: it is the largest f
      with f/p <= v/n. */
  predicate Truncates(f: nat, v: nat, n: nat, p: nat) {
    f * n <= v * p < (f + 1) * n
  }

  /** Read as a count of 10^-dec units, the padded fraction is the quantity's
      fraction truncated toward zero, never rounded. */
  lemma TruncPadValue(frac: string, dec: nat)
    requires AllDigits(frac)
    ensures AllDigits(TruncPad(frac, dec))
    ensures Truncates(DigitsValue(TruncPad(frac, dec)), DigitsValue(frac), Pow10(|frac|), Pow10(dec))
  {
    if dec <= |frac| {
      TruncPadCuts(frac, dec);
    } else {
      TruncPadExtends(frac, dec);
    }
  }

  lemma TruncPadCuts(frac: string, dec: nat)
    requires AllDigits(frac) && dec <= |frac|
    ensures AllDigits(TruncPad(frac, dec))
    ensures Truncates(DigitsValue(TruncPad(frac, dec)), DigitsValue(frac), Pow10(|frac|), Pow10(dec))
  {
    var f := TruncPad(frac, dec);
    var tail := frac[dec..];
    assert frac == f + tail;
    DigitsValueAppend(f, tail);
    DigitsValueBound(tail);
    Pow10Add(dec, |tail|);
    TruncateBounds(DigitsValue(frac), DigitsValue(f), DigitsValue(tail),
                   Pow10(dec), Pow10(|tail|), Pow10(|frac|));
  }

  lemma TruncPadExtends(frac: string, dec: nat)
    requires AllDigits(frac) && dec > |frac|
    ensures AllDigits(TruncPad(frac, dec))
    ensures Truncates(DigitsValue(TruncPad(frac, dec)), DigitsValue(frac), Pow10(|frac|), Pow10(dec))
  {
    var f := TruncPad(frac, dec);
    var pad := dec - |frac|;
    var zeros := seq(pad, _ => '0');
    ZerosValue(pad);
    DigitsValueAppend(frac, zeros);
    assert frac + zeros == f;
    Pow10Add(|frac|, pad);
    PadBounds(DigitsValue(frac), DigitsValue(f), Pow10(pad), Pow10(|frac|), Pow10(dec));
  }

  /** Dropping the b/m tail of a·m + b leaves a. */
  lemma TruncateBounds(v: nat, a: nat, b: nat, p: nat, m: nat, n: nat)
    requires v == a * m + b && b < m && p >= 1 && n == p * m
    ensures Truncates(a, v, n, p)
  {
    assert v * p == a * n + b * p;
    assert (a + 1) * n == a * n + m * p;
    assert b * p < m * p;
  }

  /** Appending zeros is exact. */
  lemma PadBounds(v: nat, f: nat, q: nat, n: nat, p: nat)
    requires f == v * q && p == n * q && n >= 1
    ensures Truncates(f, v, n, p)
  {
    assert f * n == v * p;
  }

  /** `formatBySym(qty, td)` on the token definition's `supply`. */
  function FormatBySym(qty: Qty, supply: string): (r: string)
    requires ValidQty(qty)
    ensures StartsWith(r, NatToString(qty.whole))
    ensures SupplyDecimals(SupplyParts(supply).0).None? ==> |r| == |NatToString(qty.whole)| + 1 + |SymbolText(supply)|
    ensures SupplyDecimals(SupplyParts(supply).0).Some? ==>
              |r| == |NatToString(qty.whole)| + 2 + SupplyDecimals(SupplyParts(supply).0).value + |SymbolText(supply)|
  {
    var (q, sym) := SupplyParts(supply);
    var symText := sym.GetOr("undefined");
    match SupplyDecimals(q)
    case None => NatToString(qty.whole) + " " + symText
    case Some(dec) => NatToString(qty.whole) + "." + TruncPad(qty.frac, dec) + " " + symText
  }

  /** Where the pieces of the result sit: the integer part, then (when the supply
      has decimals) a point and exactly `dec` digits, then a space and the symbol. */
  lemma FormatBySymLayout(qty: Qty, supply: string, dec: nat)
    requires ValidQty(qty)
    requires SupplyDecimals(SupplyParts(supply).0) == Some(dec)
    ensures var r := FormatBySym(qty, supply);
            var w := NatToString(qty.whole);
            r[|w|] == '.' && r[|w| + 1..|w| + 1 + dec] == TruncPad(qty.frac, dec) &&
            r[|w| + 1 + dec..] == " " + SymbolText(supply)
  {
    PointLayout(NatToString(qty.whole), TruncPad(qty.frac, dec), " " + SymbolText(supply));
  }

  /** Without a point in the supply, the result is the integer part, a space and
      the symbol. */
  lemma FormatBySymWithoutPoint(qty: Qty, supply: string)
    requires ValidQty(qty)
    requires SupplyDecimals(SupplyParts(supply).0).None?
    ensures FormatBySym(qty, supply) == NatToString(qty.whole) + " " + SymbolText(supply)
  {
  }

  lemma PointLayout(w: string, f: string, s: string)
    ensures var r := w + "." + f + s;
            r[|w|] == '.' && r[|w| + 1..|w| + 1 + |f|] == f && r[|w| + 1 + |f|..] == s
  {
    var r := w + "." + f + s;
    assert r == w + ("." + (f + s));
    assert r[|w|..] == "." + (f + s);
    assert r[|w| + 1..] == f + s;
  }

  /** A quantity that already has the supply's number of decimals is rendered
      with its own digits. */
  lemma FormatKeepsExactDecimals(qty: Qty, supply: string)
    requires ValidQty(qty)
    requires SupplyDecimals(SupplyParts(supply).0) == Some(|qty.frac|)
    ensures FormatBySym(qty, supply) == NatToString(qty.whole) + "." + qty.frac + " " + SymbolText(supply)
  {
    assert TruncPad(qty.frac, |qty.frac|) == qty.frac;
  }

  /** The token definition `mint` formats against:
      `t.filter(o => o.supply.indexOf(sym) > -1)[0]`. A row without `supply`
      makes the filter throw, and no match leaves `td` undefined. */
  function TokenDefinition(rows: seq<EosTable.Row>, sym: string): (r: Result<EosTable.Row>)
    ensures r.Ok? ==> r.value in rows && "supply" in r.value.fields && Contains(r.value.fields["supply"], sym)
    ensures r.Ok? ==> forall x :: x in rows ==> "supply" in x.fields
    ensures ((forall x :: x in rows ==> "supply" in x.fields) &&
             (exists x :: x in rows && Contains(x.fields["supply"], sym))) ==> r.Ok?
    ensures r.Err? ==> r.msg == Js.TypeError
  {
    if exists x :: x in rows && "supply" !in x.fields then Err(Js.TypeError)
    else FirstSupplying(rows, sym)
  }

  function FirstSupplying(rows: seq<EosTable.Row>, sym: string): (r: Result<EosTable.Row>)
    requires forall x :: x in rows ==> "supply" in x.fields
    ensures r.Ok? ==> r.value in rows && Contains(r.value.fields["supply"], sym)
    ensures r.Ok? <==> exists x :: x in rows && Contains(x.fields["supply"], sym)
    ensures r.Ok? ==> exists i :: 0 <= i < |rows| && rows[i] == r.value &&
                        forall j :: 0 <= j < i ==> !Contains(rows[j].fields["supply"], sym)
    ensures r.Err? ==> r.msg == Js.TypeError
  {
    if |rows| == 0 then Err(Js.TypeError)
    else if Contains(rows[0].fields["supply"], sym) then Ok(rows[0])
    else
      var r := FirstSupplying(rows[1..], sym);
      if r.Ok? then
        var i :| 1 <= i + 1 < |rows| && rows[1..][i] == r.value &&
                 forall j :: 0 <= j < i ==> !Contains(rows[1..][j].fields["supply"], sym);
        assert rows[i + 1] == r.value;
        r
      else r
  }

  /** The data of the `mint` action. */
  datatype MintData = MintData(cust: string, qty: string, dvpu: string)

  /** `token.mint(cust, qty, sym, DVPU)` over the listed token rows: the quantity
      is formatted against the first token whose supply mentions `sym`. */
  function Mint(rows: seq<EosTable.Row>, cust: string, qty: Qty, sym: string, dvpu: string): (r: Result<MintData>)
    requires ValidQty(qty)
    ensures r.Ok? <==> TokenDefinition(rows, sym).Ok?
    ensures r.Ok? ==> r.value.cust == cust && r.value.dvpu == dvpu &&
                      r.value.qty == FormatBySym(qty, TokenDefinition(rows, sym).value.fields["supply"])
  {
    var td :- TokenDefinition(rows, sym);
    Ok(MintData(cust, FormatBySym(qty, td.fields["supply"]), dvpu))
  }
}

=== FILE: eos_table.dfy ===
/** The cursor-paginated table read of the EOS adapter (`table`) and the token
    listing built on it (`token.ls`). The RPC `get_table_rows` is the parameter
    `source`, a function from the request sent to the page that comes back. */
module EosTable {
  import opened Wrappers
  import Js
  import Eos

  /** A table row: its `id` column and the other columns as text. */
  datatype Row = Row(id: int, fields: map<string, string>)

  /** One reply of `get_table_rows`. */
  datatype Page = Page(rows: seq<Row>, more: bool)

  /** The arguments of one `get_table_rows` call (`json: true` is implied). */
  datatype Request = Request(table: string, code: string, scope: string, limit: int, lowerBound: int)

  /** The recognised members of `opts`; absent ones are `None`. `net` and `auth`
      are read by `init`, the others by the sweep. */
  datatype TableOpts = TableOpts(code: Option<string>, scope: Option<string>, limit: Option<int>, filter: Option<Row -> bool>,
                                 net: Option<string>, auth: Option<string>)

  /** The same object as `init` sees it. */
  function SessionOpts(opts: TableOpts): (o: Eos.Opts)
    ensures o.OptsObject? && o.net == opts.net && o.auth == opts.auth
  {
    Eos.OptsObject(opts.net, opts.auth)
  }

  function OrText(v: Option<string>, default: string): (r: string)
    ensures r == (if v.Some? && v.value != "" then v.value else default)
  {
    if v.Some? && v.value != "" then v.value else default
  }

  /** The request for lower bound `cursor`: `opts.code || ACCT`, `opts.scope || ACCT`,
      `opts.limit || 100`. */
  function RequestAt(table: string, opts: TableOpts, acct: string, cursor: int): (q: Request)
    ensures q.lowerBound == cursor && q.table == table
    ensures q.code == OrText(opts.code, acct) && q.scope == OrText(opts.scope, acct)
    ensures q.limit == (if opts.limit.Some? && opts.limit.value != 0 then opts.limit.value else 100)
  {
    Request(table, OrText(opts.code, acct), OrText(opts.scope, acct),
            if opts.limit.Some? && opts.limit.value != 0 then opts.limit.value else 100, cursor)
  }

  /** The cursor after a page: one past the id of the page's last row, as
      returned (before any filtering); an empty page leaves it unchanged. */
  function NextCursor(cursor: int, rows: seq<Row>): int {
    if |rows| == 0 then cursor else rows[|rows| - 1].id + 1
  }

  /** `rows.filter(opts.filter)` when a filter is given. */
  function Keep(rows: seq<Row>, filter: Option<Row -> bool>): (r: seq<Row>)
    ensures |r| <= |rows|
    ensures forall x :: x in r ==> x in rows
    ensures filter.Some? ==> forall x :: x in r ==> filter.value(x)
    ensures forall x :: x in rows && (filter.None? || filter.value(x)) ==> x in r
    ensures filter.None? ==> r == rows
  {
    if |rows| == 0 then []
    else
      Keep(rows[..|rows| - 1], filter)
      + (if filter.None? || filter.value(rows[|rows| - 1]) then [rows[|rows| - 1]] else [])
  }

  /** A row passing the filter is kept as often as it is listed; any other row is dropped. */
  lemma {:induction false} KeepCounts(rows: seq<Row>, f: Row -> bool)
    ensures forall x :: multiset(Keep(rows, Some(f)))[x] == if f(x) then multiset(rows)[x] else 0
    decreases |rows|
  {
    if |rows| > 0 {
      KeepCounts(rows[..|rows| - 1], f);
      assert rows == rows[..|rows| - 1] + [rows[|rows| - 1]];
    }
  }

  /** Filtering distributes over concatenation. */
  lemma {:induction false} KeepAppend(a: seq<Row>, b: seq<Row>, filter: Option<Row -> bool>)
    ensures Keep(a + b, filter) == Keep(a, filter) + Keep(b, filter)
    decreases |b|
  {
    if |b| > 0 {
      var b' := b[..|b| - 1];
      assert (a + b)[..|a + b| - 1] == a + b';
      assert (a + b)[|a + b| - 1] == b[|b| - 1];
      KeepAppend(a, b', filter);
    } else {
      assert a + b == a;
    }
  }

  /** The rows collected over the requests `reqs`: each page's filtered rows,
      concatenated in request order. */
  function Gathered(source: Request -> Page, reqs: seq<Request>, filter: Option<Row -> bool>): seq<Row> {
    if |reqs| == 0 then []
    else Gathered(source, reqs[..|reqs| - 1], filter) + Keep(source(reqs[|reqs| - 1]).rows, filter)
  }

  /** The same collection without a filter: every row of every page, in order. */
  function AllRows(source: Request -> Page, reqs: seq<Request>): seq<Row> {
    if |reqs| == 0 then [] else AllRows(source, reqs[..|reqs| - 1]) + source(reqs[|reqs| - 1]).rows
  }

  /** Filtering each page as it arrives gives the same rows as filtering the
      whole unfiltered collection at the end. */
  lemma {:induction false} GatheredIsFilteredAll(source: Request -> Page, reqs: seq<Request>, filter: Option<Row -> bool>)
    ensures Gathered(source, reqs, filter) == Keep(AllRows(source, reqs), filter)
    decreases |reqs|
  {
    if |reqs| > 0 {
      var init := reqs[..|reqs| - 1];
      GatheredIsFilteredAll(source, init, filter);
      KeepAppend(AllRows(source, init), source(reqs[|reqs| - 1]).rows, filter);
    }
  }

  /** The requests a sweep makes: the first at cursor 0, each next one at the
      cursor computed from the previous page, issued only while that page
      reported `more`. All share the same table, code, scope and limit. */
  predicate Chained(source: Request -> Page, table: string, opts: TableOpts, acct: string, reqs: seq<Request>) {
    && |reqs| >= 1
    && reqs[0] == RequestAt(table, opts, acct, 0)
    && (forall k :: 0 <= k < |reqs| ==> reqs[k] == RequestAt(table, opts, acct, reqs[k].lowerBound))
    && (forall k :: 0 <= k < |reqs| - 1 ==>
          source(reqs[k]).more &&
          reqs[k + 1].lowerBound == NextCursor(reqs[k].lowerBound, source(reqs[k]).rows))
  }

  /** `table(table, opts)`: `init(opts)` first, which merges `net` into the
      adapter's options for every later call, then the sweep over pages. */
  method Table<H>(st: Eos.EosState<H>, build: string -> H,
                  table: string, opts: TableOpts, acct: string, source: Request -> Page, fuel: nat)
    returns (st': Eos.EosState<H>, ret: seq<Row>, reqs: seq<Request>, done: bool)
    ensures st' == Eos.Init(st, SessionOpts(opts), build).0
    ensures st'.net == opts.net.GetOr(st.net)
    ensures Chained(source, table, opts, acct, reqs)
    ensures |reqs| <= fuel + 1
    ensures done <==> !source(reqs[|reqs| - 1]).more
    ensures !done ==> |reqs| == fuel + 1
    ensures ret == Gathered(source, reqs, opts.filter)
  {
    var (st1, _) := Eos.Init(st, SessionOpts(opts), build);
    st' := st1;
    ret, reqs, done := Sweep(table, opts, acct, source, fuel);
  }

  /** The do-while over pages. At most `1 + fuel` requests are made; `done` is
      false only when the bound cut a sweep short that the source would have
      continued. */
  method Sweep(table: string, opts: TableOpts, acct: string, source: Request -> Page, fuel: nat)
    returns (ret: seq<Row>, reqs: seq<Request>, done: bool)
    ensures Chained(source, table, opts, acct, reqs)
    ensures |reqs| <= fuel + 1
    ensures done <==> !source(reqs[|reqs| - 1]).more
    ensures !done ==> |reqs| == fuel + 1
    ensures ret == Gathered(source, reqs, opts.filter)
  {
    var next := 0;
    var req := RequestAt(table, opts, acct, next);
    var r := source(req);
    reqs := [req];
    next := NextCursor(next, r.rows);
    ret := Keep(r.rows, opts.filter);
    var extra := 0;
    assert reqs[..|reqs| - 1] == [];
    while r.more && extra < fuel
      invariant |reqs| == extra + 1 && extra <= fuel
      invariant Chained(source, table, opts, acct, reqs)
      invariant r == source(reqs[|reqs| - 1])
      invariant next == NextCursor(reqs[|reqs| - 1].lowerBound, r.rows)
      invariant ret == Gathered(source, reqs, opts.filter)
      decreases fuel - extra
    {
      req := RequestAt(table, opts, acct, next);
      r := source(req);
      var prev := reqs;
      reqs := prev + [req];
      assert reqs[..|reqs| - 1] == prev;
      next := NextCursor(next, r.rows);
      ret := ret + Keep(r.rows, opts.filter);
      extra := extra + 1;
    }
    done := !r.more;
  }

  /** An empty page that still reports `more` sends the next request to the same
      cursor, so a source that keeps answering it that way is swept forever. */
  lemma EmptyPageRepeatsCursor(source: Request -> Page, table: string, opts: TableOpts, acct: string, reqs: seq<Request>, k: nat)
    requires Chained(source, table, opts, acct, reqs)
    requires k + 1 < |reqs| && |source(reqs[k]).rows| == 0
    ensures reqs[k + 1] == reqs[k]
  {
  }

  // ---------------------------------------------------------------- token.ls

  /** The first argument of `token.ls`: an issuer name, an options object (read
      as `opts`, with no issuer), or nothing at all. */
  datatype LsArg = Missing | Issuer(name: string) | Options(opts: TableOpts)

  predicate IssuedBy(row: Row, issuer: string) {
    "issuer_acct" in row.fields && row.fields["issuer_acct"] == issuer
  }

  /** `t.filter(o => o.issuer_acct == issuer)`: the issuer's rows, each as often
      as it is listed. */
  function ByIssuer(rows: seq<Row>, issuer: string): (r: seq<Row>)
    ensures forall x :: x in r ==> x in rows && IssuedBy(x, issuer)
    ensures forall x :: x in rows && IssuedBy(x, issuer) ==> x in r
    ensures forall x :: multiset(r)[x] == if IssuedBy(x, issuer) then multiset(rows)[x] else 0
  {
    if |rows| == 0 then []
    else
      assert rows == [rows[0]] + rows[1..];
      (if IssuedBy(rows[0], issuer) then [rows[0]] else []) + ByIssuer(rows[1..], issuer)
  }

  /** The options of the `treasury` sweep: the caller's (the second argument, or
      the first when it is an object), with `limit` 1000. */
  function LsOpts(arg: LsArg, second: TableOpts): TableOpts
    requires !arg.Missing?
  {
    match arg
    case Issuer(_) => second.(limit := Some(1000))
    case Options(o) => o.(limit := Some(1000))
  }

  /** `token.ls(issuer, opts)`: the `treasury` table swept 1000 rows at a time,
      then narrowed to rows whose `issuer_acct` is the issuer when a non-empty
      issuer name is given. Called with nothing, reading `issuer.isObj` throws
      before anything else happens. */
  method TokenLs<H>(st: Eos.EosState<H>, build: string -> H,
                    arg: LsArg, second: TableOpts, acct: string, source: Request -> Page, fuel: nat)
    returns (st': Eos.EosState<H>, r: Result<seq<Row>>, reqs: seq<Request>)
    ensures arg.Missing? <==> r.Err?
    ensures r.Err? ==> r.msg == Js.TypeError && reqs == [] && st' == st
    ensures r.Ok? ==> st' == Eos.Init(st, SessionOpts(LsOpts(arg, second)), build).0
    ensures r.Ok? ==> st'.net == LsOpts(arg, second).net.GetOr(st.net)
    ensures r.Ok? ==> Chained(source, "treasury", LsOpts(arg, second), acct, reqs) && |reqs| <= fuel + 1
    ensures r.Ok? ==> forall k :: 0 <= k < |reqs| ==> reqs[k].limit == 1000 && reqs[k].table == "treasury"
    ensures r.Ok? && arg.Issuer? && arg.name != "" ==>
              r.value == ByIssuer(Gathered(source, reqs, LsOpts(arg, second).filter), arg.name)
    ensures r.Ok? && !(arg.Issuer? && arg.name != "") ==>
              r.value == Gathered(source, reqs, LsOpts(arg, second).filter)
  {
    if arg.Missing? {
      return st, Err(Js.TypeError), [];
    }
    var opts := LsOpts(arg, second);
    var t, done;
    st', t, reqs, done := Table(st, build, "treasury", opts, acct, source, fuel);
    if arg.Issuer? && arg.name != "" {
      t := ByIssuer(t, arg.name);
    }
    r := Ok(t);
  }
}

=== FILE: eth.dfy ===
/** The Ethereum adapter (lib/eth.js) with web3, Etherscan and the transaction
    signer taken out: a connection is built by the parameter `build`, and the
    amounts `send` puts on a transaction (wei for ether, contract units for a
    token) arrive already converted. */
module Eth {
  import opened Wrappers
  import opened Text
  import Js
  import Validation
  import Sessions

  // ---------------------------------------------------------------- addresses

  /** `/0x[0-9a-f]+/i` matches somewhere: a `0x` (either case of `x`) followed by
      a hexadecimal digit. */
  predicate HexAfterPrefix(s: string) {
    exists i :: 0 <= i && i + 2 < |s| && s[i] == '0' && (s[i + 1] == 'x' || s[i + 1] == 'X') && IsHexDigit(s[i + 2])
  }

  /** `addr.validate`: 42 characters and the unanchored `0x`-hex pattern. */
  function ValidateAddress(addr: string, err: Option<string>): (v: Validation.Verdict)
    ensures v == Validation.Answer(true) || v == Validation.Undefined <==> |addr| == 42 && HexAfterPrefix(addr)
    ensures v.Thrown? <==> Validation.Truthy(err) && !(|addr| == 42 && HexAfterPrefix(addr))
  {
    Validation.Report(|addr| == 42 && HexAfterPrefix(addr), err)
  }

  /** A canonical address, `0x` and forty hexadecimal digits, validates. */
  lemma CanonicalAddressValidates(addr: string)
    requires |addr| == 42 && addr[0] == '0' && addr[1] == 'x'
    requires forall i :: 2 <= i < 42 ==> IsHexDigit(addr[i])
    ensures ValidateAddress(addr, None) == Validation.Answer(true)
  {
    assert IsHexDigit(addr[2]);
  }

  /** The pattern is unanchored: the prefix may sit anywhere, after any junk. */
  lemma PrefixAnywhereValidates(junk: string, tail: string)
    requires |junk| + 3 + |tail| == 42
    ensures ValidateAddress(junk + "0xa" + tail, None) == Validation.Answer(true)
  {
    var s := junk + "0xa" + tail;
    var i := |junk|;
    assert s[i] == '0' && s[i + 1] == 'x' && IsHexDigit(s[i + 2]);
  }

  // ----------------------------------------------------------------- sessions

  /** The argument of `init(net)`: none, a net name, or an options object. */
  datatype InitArg = NoArg | NetName(name: string) | OptsArg(net: Option<string>)

  /** The module's mutable state: `opts.net` and the connection map `conn`. */
  datatype EthState<H> = EthState(net: string, conns: map<string, H>)

  /** The connection lookup under a key. */
  function Connect<H>(st: EthState<H>, net: string, key: string, build: string -> H): (r: (EthState<H>, H))
    ensures r.0.net == net && key in r.0.conns && r.1 == r.0.conns[key]
    ensures key in st.conns ==> r.0.conns == st.conns && r.1 == st.conns[key]
    ensures key !in st.conns ==> r.0.conns == st.conns[key := build(key)]
  {
    var o := Sessions.Open(st.conns, key, build);
    (EthState(net, o.cache), o.handle)
  }

  /** `init(net)` as written: with no argument `net.isObj` reads a property of
      `undefined` and throws; a string is used directly as the key and leaves
      `opts` alone; an object is merged into `opts` and `opts.net` is the key. */
  function InitAsWritten<H>(st: EthState<H>, arg: InitArg, build: string -> H): (r: (EthState<H>, Result<H>))
    ensures arg.NoArg? <==> r.1.Err?
    ensures arg.NoArg? ==> r == (st, Err(Js.TypeError))
    ensures arg.NetName? ==> r.0.net == st.net && arg.name in r.0.conns && r.1 == Ok(r.0.conns[arg.name])
    ensures arg.OptsArg? ==> r.0.net == arg.net.GetOr(st.net) && r.0.net in r.0.conns && r.1 == Ok(r.0.conns[r.0.net])
  {
    match arg
    case NoArg => (st, Err(Js.TypeError))
    case NetName(n) =>
      var (st', h) := Connect(st, st.net, n, build);
      (st', Ok(h))
    case OptsArg(net) =>
      var n := net.GetOr(st.net);
      var (st', h) := Connect(st, n, n, build);
      (st', Ok(h))
  }

  /** `getNewAddress`, `getBal`, `getAccount`, `getAmt`, `getContract` and `send`
      all call `init()` with no argument, so each of them throws. */
  lemma BareInitAlwaysThrows<H>(st: EthState<H>, build: string -> H)
    ensures InitAsWritten(st, NoArg, build).1 == Err(Js.TypeError)
  {
  }

  /** `init` with `opts.net` as the default argument, which the argument-less
      callers evidently rely on. */
  function Init<H>(st: EthState<H>, arg: InitArg, build: string -> H): (r: (EthState<H>, H))
    ensures arg.NoArg? ==> r.0.net == st.net && st.net in r.0.conns && r.1 == r.0.conns[st.net]
    ensures !arg.NoArg? ==> InitAsWritten(st, arg, build) == (r.0, Ok(r.1))
  {
    var (st', h) := InitAsWritten(st, if arg.NoArg? then NetName(st.net) else arg, build);
    (st', h.value)
  }

  /** Re-entering on the same key returns the same connection and builds nothing. */
  lemma InitReentry<H>(st: EthState<H>, build: string -> H)
    ensures Init(Init(st, NoArg, build).0, NoArg, build) == Init(st, NoArg, build)
  {
  }

  // ------------------------------------------------------------------ getABI

  /** `{main: 'api', test: 'ropsten'}[stage]`, `undefined` otherwise. */
  function Subdomain(stage: string): (sub: string)
    ensures stage == "main" ==> sub == "api"
    ensures stage == "test" ==> sub == "ropsten"
    ensures stage != "main" && stage != "test" ==> sub == "undefined"
  {
    if stage == "main" then "api" else if stage == "test" then "ropsten" else "undefined"
  }

  const AbiQuery: string := "etherscan.io/api?module=contract&action=getabi&address="

  /** The Etherscan URL of `getABI(addr, stage)`; `stage` defaults to `main`. */
  function AbiUrl(addr: string, stage: Option<string>): (url: string)
    ensures StartsWith(url, "http://" + Subdomain(stage.GetOr("main")) + ".")
    ensures |url| >= |addr| && url[|url| - |addr|..] == addr
    ensures |url| == |"http://" + Subdomain(stage.GetOr("main")) + "." + AbiQuery| + |addr|
    ensures url[|"http://" + Subdomain(stage.GetOr("main")) + "."|..|url| - |addr|] == AbiQuery
  {
    var head := "http://" + Subdomain(stage.GetOr("main")) + ".";
    var url := head + AbiQuery + addr;
    assert url[..|head|] == head;
    assert url[|head|..|url| - |addr|] == AbiQuery;
    url
  }

  /** With the default stage the address is appended to the main-net query. */
  lemma AbiUrlDefault(addr: string)
    ensures AbiUrl(addr, None) == "http://api." + AbiQuery + addr
  {
    assert "http://" + "api" + "." == "http://api.";
  }

  /** Distinct addresses on the same stage ask for distinct URLs. */
  lemma AbiUrlInjective(a: string, b: string, stage: Option<string>)
    requires AbiUrl(a, stage) == AbiUrl(b, stage)
    ensures a == b
  {
    var u := AbiUrl(a, stage);
    assert |a| == |b|;
    assert a == u[|u| - |a|..] == b;
  }

  /** The JSON body of the Etherscan reply. */
  datatype EtherscanReply = EtherscanReply(message: string, result: string)

  /** `getABI`'s handling of the reply: `NOTOK` throws with the result text;
      anything else hands the result on to `JSON.parse` (not modelled). */
  function AbiResult(reply: EtherscanReply): (r: Result<string>)
    ensures r.Err? <==> reply.message == "NOTOK"
    ensures r.Err? ==> r.msg == "Etherscan: " + reply.result
    ensures r.Ok? ==> r.value == reply.result
  {
    if reply.message == "NOTOK" then Err("Etherscan: " + reply.result) else Ok(reply.result)
  }

  // -------------------------------------------------------------- token / send

  /** An entry of `cache.tokens`. */
  datatype TokenContract = TokenContract(address: string, abi: string)

  /** `token.set(ls)`: the token cache is replaced wholesale. */
  function TokenSet(ls: map<string, TokenContract>): (cache: Option<map<string, TokenContract>>)
    ensures cache == Some(ls)
  {
    Some(ls)
  }

  /** `Network.MAINNET` on `main`, `Network.ROPSTEN` anywhere else. */
  function ChainId(net: string): (id: int)
    ensures net == "main" ==> id == 1
    ensures net != "main" ==> id == 3
  {
    if net == "main" then 1 else 3
  }

  /** What the transaction carries: ether sent to the recipient, or a call of the
      token contract's `transfer(to, amount)`. */
  datatype Payload = Value(wei: string) | Transfer(recipient: string, amount: string)

  /** The fields of the unsigned transaction that `send` decides. */
  datatype Tx = Tx(chainId: int, to: string, payload: Payload)

  /** `send(token, from, toAddr, amt)` up to signing: ether goes straight to
      `toAddr`; a token transaction is addressed to the token's contract, read
      from `cache.tokens`, which throws when the cache or the entry is missing. */
  function SendTx<H>(st: EthState<H>, build: string -> H, tokens: Option<map<string, TokenContract>>,
                     token: string, toAddr: string, wei: string, units: string): (r: (EthState<H>, Result<Tx>))
    ensures r.0 == Init(st, NoArg, build).0
    ensures r.1.Ok? ==> r.1.value.chainId == ChainId(st.net)
    ensures token == "ETH" ==> r.1 == Ok(Tx(ChainId(st.net), toAddr, Value(wei)))
    ensures token != "ETH" ==> (r.1.Ok? <==> tokens.Some? && token in tokens.value)
    ensures token != "ETH" && r.1.Ok? ==>
              r.1.value.to == tokens.value[token].address && r.1.value.payload == Transfer(toAddr, units)
    ensures r.1.Err? ==> r.1.msg == Js.TypeError
  {
    var (st', _) := Init(st, NoArg, build);
    var chain := ChainId(st'.net);
    if token == "ETH" then (st', Ok(Tx(chain, toAddr, Value(wei))))
    else if tokens.None? || token !in tokens.value then (st', Err(Js.TypeError))
    else (st', Ok(Tx(chain, tokens.value[token].address, Transfer(toAddr, units))))
  }

  /** After `token.set`, a token transfer goes to the contract address that was set. */
  lemma SetThenSend<H>(st: EthState<H>, build: string -> H, ls: map<string, TokenContract>,
                       token: string, toAddr: string, wei: string, units: string)
    requires token != "ETH" && token in ls
    ensures SendTx(st, build, TokenSet(ls), token, toAddr, wei, units).1 ==
              Ok(Tx(ChainId(st.net), ls[token].address, Transfer(toAddr, units)))
  {
  }
}

=== FILE: index.dfy ===
/** Folding a listing into a map with `reduce((acc, o) => { acc[key(o)] = o; return acc }, {})`:
    every key of the listing is present and the last entry carrying a key wins. */
module Index {

  /** Position of the last entry of `ls` whose key is `k`, or -1. */
  function LastIndex<K(==), V>(ls: seq<V>, key: V -> K, k: K): (i: int)
    ensures -1 <= i < |ls|
    ensures i >= 0 ==> key(ls[i]) == k
    ensures forall j :: i < j < |ls| ==> key(ls[j]) != k
  {
    if |ls| == 0 then -1
    else if key(ls[|ls| - 1]) == k then |ls| - 1
    else LastIndex(ls[..|ls| - 1], key, k)
  }

  /** The left fold of the listing into a map. */
  function LastWins<K(==), V>(ls: seq<V>, key: V -> K): (m: map<K, V>)
    ensures forall i :: 0 <= i < |ls| ==> key(ls[i]) in m
    ensures forall k :: k in m ==> LastIndex(ls, key, k) >= 0 && m[k] == ls[LastIndex(ls, key, k)]
  {
    if |ls| == 0 then map[]
    else LastWins(ls[..|ls| - 1], key)[key(ls[|ls| - 1]) := ls[|ls| - 1]]
  }

  /** The keys of the folded map are exactly the keys occurring in the listing. */
  lemma LastWinsKeys<K, V>(ls: seq<V>, key: V -> K)
    ensures LastWins(ls, key).Keys == set i | 0 <= i < |ls| :: key(ls[i])
  {
    var m := LastWins(ls, key);
    forall k | k in m ensures k in set i | 0 <= i < |ls| :: key(ls[i]) {
      var i := LastIndex(ls, key, k);
      assert key(ls[i]) == k;
    }
  }

  /** Every value of the folded map is an entry of the listing. */
  lemma LastWinsValues<K, V>(ls: seq<V>, key: V -> K, k: K)
    requires k in LastWins(ls, key)
    ensures LastWins(ls, key)[k] in ls
    ensures key(LastWins(ls, key)[k]) == k
  {
  }

  /** Every entry of the folded map is a listed element filed under its own key. */
  lemma LastWinsFiled<K, V>(ls: seq<V>, key: V -> K)
    ensures forall k :: k in LastWins(ls, key) ==> LastWins(ls, key)[k] in ls && key(LastWins(ls, key)[k]) == k
  {
    forall k | k in LastWins(ls, key)
      ensures LastWins(ls, key)[k] in ls && key(LastWins(ls, key)[k]) == k
    {
      LastWinsValues(ls, key, k);
    }
  }

  /** Two indexes folded from the same listing agree: the entry one of them holds
      under any key is filed under its own key in the other. */
  lemma LastWinsCrossKeys<K1, K2, V>(ls: seq<V>, key1: V -> K1, key2: V -> K2, k: K1)
    requires k in LastWins(ls, key1)
    ensures key2(LastWins(ls, key1)[k]) in LastWins(ls, key2)
  {
    var i := LastIndex(ls, key1, k);
    assert LastWins(ls, key1)[k] == ls[i];
  }
}

=== FILE: js.dfy ===
/** The few JavaScript value semantics the adapters' guards depend on:
    truthiness, `Number.isInteger`, `parseInt` and the `q <= 0` comparison. */
module Js {
  import opened Text

  /** A JavaScript value as far as the guards can tell values apart. */
  datatype Value = Undefined | Null | Bool(b: bool) | Num(x: real) | NaN | Str(s: string)

  /** The message of a `TypeError` thrown by reading a property of `undefined`;
      its exact wording belongs to the engine. */
  const TypeError: string := "TypeError: cannot read a property of undefined"

  /** `utils.bignum(amt, dec)` of `dlt.utils`, which is not part of this model:
      the amount text scaled to minimal units at `dec` decimals. */
  type Bignum = (string, int) -> int

  predicate Truthy(v: Value) {
    match v
    case Undefined => false
    case Null => false
    case Bool(b) => b
    case Num(x) => x != 0.0
    case NaN => false
    case Str(s) => s != ""
  }

  /** `Number.isInteger(v)`: only numbers with no fractional part. */
  predicate IsInteger(v: Value) {
    v.Num? && v.x.Floor as real == v.x
  }

  function HexDigitValue(c: char): (d: nat)
    requires IsHexDigit(c)
    ensures d < 16
  {
    if IsDigit(c) then DigitValue(c)
    else if 'a' <= c <= 'f' then c as int - 'a' as int + 10
    else c as int - 'A' as int + 10
  }

  function HexDigitsValue(s: string): nat
    requires forall i :: 0 <= i < |s| ==> IsHexDigit(s[i])
  {
    if |s| == 0 then 0 else HexDigitsValue(s[..|s| - 1]) * 16 + HexDigitValue(s[|s| - 1])
  }

  /** The digits parsed from `body` (after whitespace and sign): a `0x` prefix
      selects hexadecimal; no digit at all gives `NaN`. */
  function ParseMagnitude(body: string): (r: Value)
    ensures r.Num? ==> r.x >= 0.0 && r.x.Floor as real == r.x
    ensures r.NaN? || r.Num?
  {
    if |body| >= 2 && body[0] == '0' && (body[1] == 'x' || body[1] == 'X') then
      var hex := body[2..];
      var n := SpanNot(hex, c => !IsHexDigit(c));
      if n == 0 then NaN else Num(HexDigitsValue(hex[..n]) as real)
    else
      var n := SpanNot(body, c => !IsDigit(c));
      if n == 0 then NaN else Num(DigitsValue(body[..n]) as real)
  }

  /** `parseInt(s)` with no radix: leading whitespace, an optional sign, then
      the longest run of digits; anything after the run is ignored. */
  function ParseInt(s: string): (r: Value)
    ensures r.NaN? || IsInteger(r)
  {
    var t := s[SpanNot(s, c => !IsSpace(c))..];
    var negative := |t| > 0 && t[0] == '-';
    var body := if |t| > 0 && (t[0] == '-' || t[0] == '+') then t[1..] else t;
    var m := ParseMagnitude(body);
    if m.NaN? then NaN
    else if negative then NegateInteger(m.x); Num(-m.x)
    else m
  }

  lemma NegateInteger(x: real)
    requires x.Floor as real == x
    ensures (-x).Floor as real == -x
  {
    var k := x.Floor;
    assert -x == (-k) as real;
  }

  /** `v <= 0` for a value that is not a string: `NaN` and `undefined` compare
      false, `null` and `false` count as 0. */
  predicate AtMostZero(v: Value)
    requires !v.Str?
  {
    match v
    case Undefined => false
    case Null => true
    case Bool(b) => !b
    case Num(x) => x <= 0.0
    case NaN => false
  }

  /** A decimal integer with no sign parses to its value. */
  lemma {:induction false} ParseIntDecimal(n: nat)
    ensures ParseInt(NatToString(n)) == Num(n as real)
  {
    var s := NatToString(n);
    assert SpanNot(s, c => !IsSpace(c)) == 0 by {
      assert IsDigit(s[0]);
    }
    assert s[0..] == s;
    var k := SpanNot(s, c => !IsDigit(c));
    assert k == |s|;
    assert s[..k] == s;
    NatToStringValue(n);
    if |s| >= 2 {
      assert s[0] == '0' ==> n == 0;
      assert s[0] != '0';
    }
  }
}

=== FILE: sessions.dfy ===
/** The memoised connection caches of the adapters (`conn[net]`, `cache.conn[net]`,
    `conn[net][asset]`): a connection is constructed on the first request for a
    key and handed back unchanged on every later request for that key. */
module Sessions {

  datatype Opened<K, H> = Opened(cache: map<K, H>, handle: H, built: bool)

  /** `if (conn[key]) return conn[key]; return conn[key] = build(key);` */
  function Open<K(==), H>(cache: map<K, H>, key: K, build: K -> H): (r: Opened<K, H>)
    ensures key in r.cache && r.handle == r.cache[key]
    ensures r.built <==> key !in cache
    ensures key in cache ==> r.cache == cache
    ensures r.cache.Keys == cache.Keys + {key}
    ensures forall k :: k in cache ==> r.cache[k] == cache[k]
  {
    if key in cache then Opened(cache, cache[key], false)
    else Opened(cache[key := build(key)], build(key), true)
  }

  /** A sequence of requests: the final cache, the handle each request got,
      and the keys for which a connection was constructed, in order. */
  function OpenAll<K(==), H>(cache: map<K, H>, keys: seq<K>, build: K -> H): (map<K, H>, seq<H>, seq<K>)
    decreases |keys|
  {
    if |keys| == 0 then (cache, [], [])
    else
      var o := Open(cache, keys[0], build);
      var rest := OpenAll(o.cache, keys[1..], build);
      (rest.0, [o.handle] + rest.1, (if o.built then [keys[0]] else []) + rest.2)
  }

  predicate NoDuplicates<K(==)>(s: seq<K>) {
    forall i, j :: 0 <= i < j < |s| ==> s[i] != s[j]
  }

  /** Over any sequence of requests, entries already cached survive and every
      requested key ends up cached. */
  lemma {:induction false} OpenAllKeepsEntries<K, H>(cache: map<K, H>, keys: seq<K>, build: K -> H)
    ensures OpenAll(cache, keys, build).0.Keys == cache.Keys + set k | k in keys
    ensures forall k :: k in cache ==> OpenAll(cache, keys, build).0[k] == cache[k]
    decreases |keys|
  {
    if |keys| > 0 {
      var o := Open(cache, keys[0], build);
      OpenAllKeepsEntries(o.cache, keys[1..], build);
      assert (set k | k in keys) == {keys[0]} + set k | k in keys[1..];
    }
  }

  /** Every request for a key gets the one handle the cache ends up holding for it. */
  lemma {:induction false} OpenAllSharesHandles<K, H>(cache: map<K, H>, keys: seq<K>, build: K -> H)
    ensures |OpenAll(cache, keys, build).1| == |keys|
    ensures forall i :: 0 <= i < |keys| ==>
              keys[i] in OpenAll(cache, keys, build).0 &&
              OpenAll(cache, keys, build).1[i] == OpenAll(cache, keys, build).0[keys[i]]
    decreases |keys|
  {
    if |keys| > 0 {
      var o := Open(cache, keys[0], build);
      OpenAllSharesHandles(o.cache, keys[1..], build);
      OpenAllKeepsEntries(o.cache, keys[1..], build);
      var r := OpenAll(cache, keys, build);
      forall i | 0 <= i < |keys|
        ensures keys[i] in r.0 && r.1[i] == r.0[keys[i]]
      {
        if i > 0 {
          assert keys[i] == keys[1..][i - 1];
        }
      }
    }
  }

  /** A connection is constructed exactly once for each requested key that was
      not cached before, and never twice for the same key. */
  lemma {:induction false} OpenAllBuildsOnce<K, H>(cache: map<K, H>, keys: seq<K>, build: K -> H)
    ensures NoDuplicates(OpenAll(cache, keys, build).2)
    ensures (set k | k in OpenAll(cache, keys, build).2) == (set k | k in keys) - cache.Keys
    decreases |keys|
  {
    if |keys| > 0 {
      var o := Open(cache, keys[0], build);
      OpenAllBuildsOnce(o.cache, keys[1..], build);
      var rest := OpenAll(o.cache, keys[1..], build);
      var r := OpenAll(cache, keys, build);
      var head: seq<K> := if o.built then [keys[0]] else [];
      assert r.2 == head + rest.2;
      assert (set k | k in r.2) == (set k | k in head) + (set k | k in rest.2);
      assert (set k | k in keys) == {keys[0]} + set k | k in keys[1..];
      assert o.cache.Keys == cache.Keys + {keys[0]};
      assert forall k :: k in rest.2 ==> k !in o.cache;
    }
  }
}

=== FILE: text.dfy ===
/** String helpers standing in for the JavaScript built-ins the adapters use:
    character classes of the regular expressions, `indexOf`, `replace` with a
    string pattern, `split` on one character, `toLowerCase`, and the decimal
    rendering of a non-negative integer. */
module Text {
  import opened Wrappers

  predicate IsDigit(c: char) {
    '0' <= c <= '9'
  }

  /** `[a-z]` */
  predicate IsLower(c: char) {
    'a' <= c <= 'z'
  }

  /** `[A-Z]` */
  predicate IsUpper(c: char) {
    'A' <= c <= 'Z'
  }

  /** `[0-9a-f]`, case-sensitive */
  predicate IsLowerHex(c: char) {
    IsDigit(c) || 'a' <= c <= 'f'
  }

  /** `[0-9a-f]` under the `i` flag */
  predicate IsHexDigit(c: char) {
    IsLowerHex(c) || 'A' <= c <= 'F'
  }

  /** The ASCII members of the `\s` class (the Unicode spaces are not modelled). */
  predicate IsSpace(c: char) {
    c == ' ' || c == '\t' || c == '\n' || c == '\r' || c == '\U{B}' || c == '\U{C}'
  }

  predicate AllDigits(s: string) {
    forall i :: 0 <= i < |s| ==> IsDigit(s[i])
  }

  /** Some character of `s` satisfies `p`: an unanchored one-character regex test. */
  predicate HasSome(s: string, p: char -> bool) {
    exists i :: 0 <= i < |s| && p(s[i])
  }

  predicate StartsWith(s: string, p: string) {
    |p| <= |s| && s[..|p|] == p
  }

  /** `toLowerCase` on ASCII letters. */
  function Lower(c: char): (r: char)
    ensures IsUpper(c) ==> IsLower(r)
    ensures !IsUpper(c) ==> r == c
  {
    if IsUpper(c) then (c as int + 32) as char else c
  }

  function LowerString(s: string): (r: string)
    ensures |r| == |s|
    ensures forall i :: 0 <= i < |s| ==> r[i] == Lower(s[i])
  {
    if |s| == 0 then "" else [Lower(s[0])] + LowerString(s[1..])
  }

  /** `p` occurs in `s` starting at index `i`. */
  predicate OccursAt(s: string, p: string, i: int) {
    0 <= i && i + |p| <= |s| && s[i..i + |p|] == p
  }

  predicate Contains(s: string, p: string) {
    exists i :: 0 <= i <= |s| && OccursAt(s, p, i)
  }

  function IndexFrom(s: string, p: string, i: nat): (r: Option<nat>)
    requires i <= |s|
    ensures r.Some? ==> i <= r.value && OccursAt(s, p, r.value)
    ensures r.Some? ==> forall j :: i <= j < r.value ==> !OccursAt(s, p, j)
    ensures r.None? ==> forall j :: i <= j <= |s| ==> !OccursAt(s, p, j)
    decreases |s| - i
  {
    if OccursAt(s, p, i) then Some(i)
    else if i == |s| then None
    else IndexFrom(s, p, i + 1)
  }

  /** `s.indexOf(p)`, with `None` for -1. */
  function IndexOf(s: string, p: string): (r: Option<nat>)
    ensures r.Some? <==> Contains(s, p)
    ensures r.Some? ==> OccursAt(s, p, r.value)
    ensures r.Some? ==> forall j :: 0 <= j < r.value ==> !OccursAt(s, p, j)
  {
    IndexFrom(s, p, 0)
  }

  /** `s.replace(p, rep)` with a string pattern: the first occurrence only. */
  function ReplaceFirst(s: string, p: string, rep: string): (r: string)
  {
    match IndexOf(s, p)
    case None => s
    case Some(i) => s[..i] + rep + s[i + |p|..]
  }

  /** Length of the longest prefix of `s` containing no character satisfying `stop`. */
  function SpanNot(s: string, stop: char -> bool): (n: nat)
    ensures n <= |s|
    ensures forall i :: 0 <= i < n ==> !stop(s[i])
    ensures n < |s| ==> stop(s[n])
  {
    if |s| == 0 || stop(s[0]) then 0 else 1 + SpanNot(s[1..], stop)
  }

  /** `s.split(sep)[k]` for a one-character separator; `None` is `undefined`. */
  function Field(s: string, sep: char, k: nat): (r: Option<string>)
    ensures r.Some? ==> forall i :: 0 <= i < |r.value| ==> r.value[i] != sep
    decreases k
  {
    var n := SpanNot(s, c => c == sep);
    if k == 0 then Some(s[..n])
    else if n == |s| then None
    else Field(s[n + 1..], sep, k - 1)
  }

  function DigitChar(d: nat): (c: char)
    requires d < 10
    ensures IsDigit(c)
  {
    ('0' as int + d) as char
  }

  function DigitValue(c: char): (d: nat)
    requires IsDigit(c)
    ensures d < 10
  {
    c as int - '0' as int
  }

  /** The value of a decimal digit string, most significant digit first. */
  function DigitsValue(s: string): nat
    requires AllDigits(s)
  {
    if |s| == 0 then 0 else DigitsValue(s[..|s| - 1]) * 10 + DigitValue(s[|s| - 1])
  }

  /** `String(n)` for a non-negative integer: no sign, no leading zero. */
  function NatToString(n: nat): (s: string)
    ensures |s| > 0 && AllDigits(s)
    ensures s[0] == '0' ==> n == 0
  {
    if n < 10 then [DigitChar(n)] else NatToString(n / 10) + [DigitChar(n % 10)]
  }

  /** Reading back the rendered digits yields the number. */
  lemma {:induction false} NatToStringValue(n: nat)
    ensures DigitsValue(NatToString(n)) == n
  {
    if n >= 10 {
      NatToStringValue(n / 10);
      var s := NatToString(n);
      assert s[..|s| - 1] == NatToString(n / 10);
    }
  }

  /** `String(n)` for any integer. */
  function IntToString(n: int): (s: string)
    ensures n >= 0 ==> s == NatToString(n)
    ensures n < 0 ==> s == "-" + NatToString(-n)
  {
    if n >= 0 then NatToString(n) else "-" + NatToString(-n)
  }

  function Pow10(n: nat): (p: nat)
    ensures p >= 1
  {
    if n == 0 then 1 else 10 * Pow10(n - 1)
  }

  lemma {:induction false} Pow10Add(a: nat, b: nat)
    ensures Pow10(a + b) == Pow10(a) * Pow10(b)
    decreases b
  {
    if b > 0 {
      Pow10Add(a, b - 1);
      assert Pow10(a + b) == 10 * Pow10(a + b - 1);
    }
  }

  lemma AllDigitsConcat(s: string, t: string)
    requires AllDigits(s) && AllDigits(t)
    ensures AllDigits(s + t)
  {
    var st := s + t;
    forall i | 0 <= i < |st| ensures IsDigit(st[i]) {
      if i >= |s| {
        assert st[i] == t[i - |s|];
      }
    }
  }

  /** Appending digits shifts the value left by their count. */
  lemma {:induction false} DigitsValueAppend(s: string, t: string)
    requires AllDigits(s) && AllDigits(t)
    ensures AllDigits(s + t)
    ensures DigitsValue(s + t) == DigitsValue(s) * Pow10(|t|) + DigitsValue(t)
    decreases |t|
  {
    AllDigitsConcat(s, t);
    if |t| == 0 {
      assert s + t == s;
    } else {
      var t' := t[..|t| - 1];
      var st := s + t;
      assert st[..|st| - 1] == s + t';
      assert st[|st| - 1] == t[|t| - 1];
      DigitsValueAppend(s, t');
      var a, b, d, p := DigitsValue(s), DigitsValue(t'), DigitValue(t[|t| - 1]), Pow10(|t'|);
      assert DigitsValue(st) == (a * p + b) * 10 + d;
      assert DigitsValue(t) == b * 10 + d;
      assert Pow10(|t|) == p * 10;
      ShiftDigit(a, b, d, p);
    }
  }

  lemma ShiftDigit(a: int, b: int, d: int, p: int)
    ensures (a * p + b) * 10 + d == a * (p * 10) + (b * 10 + d)
  {
  }

  /** A digit string of length n is worth less than 10^n. */
  lemma {:induction false} DigitsValueBound(s: string)
    requires AllDigits(s)
    ensures DigitsValue(s) < Pow10(|s|)
  {
    if |s| > 0 {
      DigitsValueBound(s[..|s| - 1]);
    }
  }

  /** A run of zeros is worth nothing. */
  lemma {:induction false} ZerosValue(n: nat)
    ensures AllDigits(seq(n, _ => '0'))
    ensures DigitsValue(seq(n, _ => '0')) == 0
  {
    if n > 0 {
      var z := seq(n, _ => '0');
      assert z[..n - 1] == seq(n - 1, _ => '0');
      ZerosValue(n - 1);
    }
  }
}

=== FILE: validation.dfy ===
/** The shared shape of the `addr.validate(addr, err)` helpers of the BCH, EOS
    and Ethereum adapters: without a (truthy) `err` they return the verdict;
    with one they throw `err` when the address is invalid and otherwise fall
    off the end, returning `undefined`. */
module Validation {
  import opened Wrappers
  import Js

  datatype Verdict = Answer(valid: bool) | Undefined | Thrown(msg: string)

  /** An optional string argument as JavaScript tests it: a missing one is
      `undefined`. */
  predicate Truthy(s: Option<string>) {
    s.Some? && Js.Truthy(Js.Str(s.value))
  }

  function Report(valid: bool, err: Option<string>): (v: Verdict)
    ensures !Truthy(err) ==> v == Answer(valid)
    ensures Truthy(err) ==> (v.Thrown? <==> !valid)
    ensures Truthy(err) ==> (v.Undefined? <==> valid)
    ensures v.Thrown? ==> v.msg == err.value
  {
    if !Truthy(err) then Answer(valid)
    else if !valid then Thrown(err.value)
    else Undefined
  }
}

=== FILE: wrappers.dfy ===
/** Failure-carrying datatypes shared by every ledger adapter.
    A JavaScript `throw new Error(m)` becomes `Err(m)`; a value that the
    source leaves `undefined` becomes `None`. */
module Wrappers {

  datatype Option<+T> = None | Some(value: T) {
    /** The value, or a default when absent (`x || d` on an optional field). */
    function GetOr(default: T): T {
      match this
      case Some(v) => v
      case None => default
    }
  }

  /** The outcome of an operation that may throw: the thrown message is kept. */
  datatype Result<+T> = Ok(value: T) | Err(msg: string) {
    predicate IsFailure() {
      Err?
    }

    function PropagateFailure<U>(): Result<U>
      requires Err?
    {
      Err(msg)
    }

    function Extract(): T
      requires Ok?
    {
      value
    }
  }
}
